=== FILE: README.md ===
# A verified model of the Telegram prompt bot's core

The bot answers `/prompt` (or `/p`) commands in Telegram chats with text
streamed from a language model. A prompt first passes several gates:
- a sender must exist;
- the sender must not be blacklisted;
- the chat must be whitelisted;
- the sender must not be rate limited;
- the message must be text;
- the prompt after the command word must not be empty.

The bot then posts a "Thinking..." placeholder. For an edited prompt that
already has a reply, it edits that reply to "Regenerating response..."
instead. It keeps a map from the user's message to that bot message. As the
answer streams in, the bot edits the placeholder with the text received so
far, at most once every three seconds. At the end it makes one final edit
with the Markdown-normalised answer, sent with Markdown parsing, and retries
as plain text if Telegram cannot parse it. An apology is sent as a new
reply when the placeholder cannot be set up (the "Thinking..." reply or the
"Regenerating response..." edit fails), an intermediate edit fails, the
generator throws, the final edit fails without an error description, or the
plain-text retry fails. Any other
error of the final edit is swallowed.

Admin commands maintain three things:
- the chat whitelist (`/whitelist`, `/unwhitelist`);
- the in-memory user blacklist (`/blacklist`, `/unblacklist`);
- a per-chat context prompt (`/setcontext`, `/context`, `/removecontext`).

The model is written in Dafny as pure functions over immutable data. The
outside world is made explicit:
- Clock readings are explicit timestamps.
- Telegram's answers to the placeholder and to the edits, the generator's
  fragments and the store's answers are inputs. Other replies are assumed
  delivered (see "Left out").
- Every call `handlePrompt` makes becomes an element of its result; each
  admin command's result is its reply and what it handed to the store.

The modules:

- `Options` holds the optional-value datatype.
- `JsText` models the JavaScript string operations the source relies on:
  - `split` keeps empty pieces, and `split(" ").slice(1).join(" ")` is
    everything after the first space;
  - `trim` uses the ECMAScript white-space and line-terminator sets;
  - `Number.prototype.toString` and `parseInt` on decimal digits;
  - the `^\d+$` and `^-?\d+$` tests;
  - `String.prototype.length` counted in UTF-16 code units.
- `Markdown` models `stripMarkdown` as its two global regular-expression
  replacements followed by `trim`:
  - the multiline bullet rewrite `/^(\s*)\*\s+/gm` → `$1- `;
  - the lazy emphasis removal `/\*(.+?)\*/g` → `$1`.

  `MarkdownFacts` states what the two replacements do to concrete shapes of
  text.
- `Checks` models the rate limiter, `isAdmin` and `isBlacklisted`.
- `Relay` is the streaming loop and the final edit with its Markdown
  fallback.
- `Prompt` is `handlePrompt` and the edited-message hook.
- `Whitelist`, `Blacklist` and `ContextCommands` are the admin commands.

## Model

| member | source | states |
|---|---|---|
| JsText.SplitTailJoin | src/commands/prompt.ts:48 | splitting on spaces, dropping the first piece and joining with spaces gives exactly the text after the first space |
| JsText.JoinSplit | src/utils/checks.ts:8 | joining the pieces of a split with the separator gives back the original string |
| JsText.SplitJoin | src/utils/checks.ts:8 | splitting a join of separator-free pieces gives back exactly those pieces, empty ones included |
| JsText.SplitSingle | src/commands/context.ts:28-29 | a split has a single piece exactly when the separator does not occur |
| JsText.Trim | src/commands/prompt.ts:150 | the trimmed text has no white space or line terminator at either end, is empty exactly when the input is all white space, and text already without such ends is unchanged |
| JsText.TrimSlice | src/commands/prompt.ts:150 | trimming only removes white space from the two ends: the result is a contiguous slice of the input with white space on both sides |
| JsText.IntToStringInjective | src/utils/checks.ts:23-29 | distinct numbers have distinct decimal strings, so comparing id strings is comparing ids |
| JsText.IntToStringSigned | src/commands/whitelist.ts:21 | every rendered chat id matches `^-?\d+$` |
| JsText.ParseNatToString | src/commands/blacklist.ts:26 | `parseInt` of a rendered number gives the number back |
| JsText.NatToStringParse | src/commands/blacklist.ts:25-26 | a digit string without a leading zero is the rendering of its value |
| JsText.Utf16Bmp | src/commands/context.ts:43 | text of Basic Multilingual Plane characters has a `.length` equal to its character count |
| JsText.Utf16Astral | src/commands/context.ts:43 | text of characters outside the Basic Multilingual Plane has a `.length` of twice its character count |
| Markdown.BulletAt | src/commands/prompt.ts:148 | a bullet match is the whole leading white-space run, a star, and one or more white-space characters up to the next non-white-space character; no match means one of these is missing |
| Markdown.RewriteBullets | src/commands/prompt.ts:148 | the bullet rewrite never lengthens the text, never adds stars, and leaves star-free text unchanged |
| Markdown.CloseAt | src/commands/prompt.ts:149 | the closing star of an emphasis match is the first star after at least one character, with no line terminator between; no match means every later star lies beyond a line break |
| Markdown.StripEmphasis | src/commands/prompt.ts:149 | emphasis removal never lengthens the text, never adds stars, and leaves star-free text unchanged |
| Markdown.StripMarkdown | src/commands/prompt.ts:147-151 | the normalised text has no white space at either end, is no longer than the input, has no more stars, and star-free input is only trimmed |
| MarkdownFacts.BulletsNeedLineStart | src/commands/prompt.ts:148 | without a line start (`^` under the `m` flag) no bullet is rewritten |
| MarkdownFacts.BulletItem | src/commands/prompt.ts:148 | an indented `* item` line becomes `- item` with its indentation kept |
| MarkdownFacts.BulletRun | src/commands/prompt.ts:148 | at a line start, indentation, a star and any non-empty run of white space (line terminators included) up to a non-white-space character form one bullet match; the whole run becomes `- `, and the scan resumes at a line start exactly when the run ended with a line terminator |
| MarkdownFacts.BulletOpens | src/commands/prompt.ts:148 | the case of a single space after the star: the scan resumes in the middle of the line |
| MarkdownFacts.EmptyBulletMerges | src/commands/prompt.ts:148 | a bullet with nothing after its star merges with the next line: its white space runs through the line break, so `* ` followed by a break and `* b` becomes `- - b` |
| MarkdownFacts.BulletLine | src/commands/prompt.ts:148 | an indented `* item` line followed by a line terminator becomes `- item`, and the text after the terminator is rewritten as starting a new line |
| MarkdownFacts.PlainLine | src/commands/prompt.ts:148 | a line whose first character is neither white space nor a star passes through unchanged, and the next line starts a new line for `^` |
| MarkdownFacts.PlainPrefix | src/commands/prompt.ts:149 | a star-free prefix passes through emphasis removal unchanged |
| MarkdownFacts.Emphasis | src/commands/prompt.ts:149 | `*x*` with a one-line `x` free of further stars is replaced by `x` |
| MarkdownFacts.TwoEmphases | src/commands/prompt.ts:149 | two emphasised words around star-free text lose their stars and keep everything else |
| MarkdownFacts.BoldAndMore | src/commands/prompt.ts:147-151 | `*bold* and *more*` normalises to `bold and more` |
| MarkdownFacts.Unformatted | src/commands/prompt.ts:147-151 | star-free text that starts and ends with an ASCII letter comes back unchanged |
| MarkdownFacts.StarFreeIdempotent | src/commands/prompt.ts:147-151 | on star-free text, normalising twice is the same as normalising once |
| MarkdownFacts.NotIdempotent | src/commands/prompt.ts:147-151 | `**bold**` normalises to `*bold*` and then to `bold`, so normalisation is not idempotent |
| Checks.IsRateLimited | src/utils/checks.ts:10-21 | a command is limited exactly when less than `RATE_LIMIT_SECONDS` seconds passed since the user's stored time (0 when none); a limited call changes nothing; an accepted call stores the current time for that user only |
| Checks.StoredAfterAccept | src/utils/checks.ts:10-21 | once an attempt is accepted, the user's stored time never drops below it while the clock is non-decreasing |
| Checks.AcceptedSpacing | src/utils/checks.ts:6-21 | while the clock is non-decreasing, two accepted commands of one user are at least ten seconds apart, whatever was refused in between |
| Checks.AdminsListed | src/utils/checks.ts:8-25 | with `ADMINS` set to comma-joined ids, `Checks.IsAdmin` holds for a user exactly when their id string is one of those ids |
| Checks.CommaNeverAdmin | src/utils/checks.ts:8-25 | an id string containing a comma is never an admin, since splitting `ADMINS` on commas leaves no piece with a comma |
| Checks.AdminForms | src/utils/checks.ts:23-25 | a typed id of digits without a leading zero and the number it denotes are the same admin, and distinct numeric ids never share an admin entry |
| Relay.Shown | src/commands/prompt.ts:91 | an intermediate edit shows the buffer, or "Processing..." while the buffer is empty, and is never empty |
| Relay.Step | src/commands/prompt.ts:81-99 | each fragment is appended to the buffer; an edit is issued exactly when at least `UPDATE_INTERVAL` passed since the last update; a "not modified" answer counts as success and moves the last update time; any other error leaves the loop |
| Relay.Run | src/commands/prompt.ts:77-100 | the buffer is the concatenation of the fragments consumed; without a failure every fragment is consumed; a failure stops at the fragment whose edit failed; intermediate edits are spaced by at least `UPDATE_INTERVAL` and each shows a prefix of the buffer |
| Relay.EditBudget | src/commands/prompt.ts:79-98 | `n` intermediate edits take at least `n` times `UPDATE_INTERVAL` milliseconds |
| Relay.FinalText | src/commands/prompt.ts:102-108 | the final text is the normalised buffer, or "Done!" when normalising leaves nothing |
| Relay.FinalEdits | src/commands/prompt.ts:103-121 | the Markdown edit comes first; a "can't parse entities" answer triggers a plain retry of the same text; the error escapes to the apology exactly when the error has no description or the retry fails; other errors are swallowed; exactly one Markdown edit is made, one plain retry follows only a "can't parse entities" answer, and one apology only an undescribed error or a failed retry, with no other calls |
| Relay.Intermediate | src/commands/prompt.ts:86-92 | intermediate edits are sent without a parse mode, one per issued edit, in order |
| Relay.StreamReply | src/commands/prompt.ts:77-127 | the intermediate edits come first, an apology can only be the last call, and there is always at least one call after the intermediate edits |
| Relay.StreamReplyOutcome | src/commands/prompt.ts:77-127 | the last call is the apology exactly when an intermediate edit failed, the generator threw, or the final edit failed in a way its handler does not catch; otherwise the final Markdown edit shows the normalised text of all fragments |
| Relay.StreamFails | src/commands/prompt.ts:81-127 | after a failed intermediate edit or a throwing generator, only the apology follows the intermediate edits, and every call before it is a plain edit |
| Relay.StreamFinishes | src/commands/prompt.ts:100-121 | a loop that consumed every fragment is followed by the final edits of the normalised text of all fragments |
| Relay.QuietStream | src/commands/prompt.ts:85 | while less than `UPDATE_INTERVAL` has passed since the start, no intermediate edit is made and the loop completes |
| Relay.QuickReply | src/commands/prompt.ts:77-121 | fragments "Hel", "lo ", "world" arriving within the first interval from a generator that does not throw give exactly one call, the final Markdown edit of "Hello world", when Telegram answers that edit with neither "can't parse entities" nor an error without description |
| Relay.PauseShowsPrefix | src/commands/prompt.ts:81-99 | "Hello " arriving five seconds after the start is shown at once, and a fragment that follows within the next interval adds no edit |
| Relay.PauseAfterPrefix | src/commands/prompt.ts:81-99 | a pause alone triggers no edit: "Hello " arriving within the first interval is not shown however long the generator then stays silent, and "world" arriving after the interval brings one edit showing "Hello world" |
| Prompt.ExtractPrompt | src/commands/prompt.ts:48 | the prompt is the trimmed text after the first space, and empty when there is no space |
| Prompt.Placeholder | src/commands/prompt.ts:59-75 | an edited message with a known reply reuses that reply, edits it to "Regenerating response..." and leaves the map alone; otherwise "Thinking..." is sent and the map records it for this message only; a successful send makes the sent message the placeholder, a regenerate edit gives a placeholder exactly when it succeeds, and a failure of either call leads to the apology |
| Prompt.RelayActions | src/commands/prompt.ts:86-127 | relay edits address the placeholder message, and the apology is a reply to the user's message |
| Prompt.Respond | src/commands/prompt.ts:59-127 | generation starts right after the placeholder, with the extracted prompt, and is followed by the relay's calls; nothing follows a failed placeholder but the apology |
| Prompt.HandlePrompt | src/commands/prompt.ts:10-57 | the gates run in order: no sender gives silence; a blacklisted sender or an unlisted chat get a refusal; a rate-limited sender gets silence; the limiter state is updated only through the rate check |
| Prompt.GatesBeforeWork | src/commands/prompt.ts:17-81 | generation starts exactly when every gate passes and the placeholder is in place, and it is given the extracted prompt |
| Prompt.PastTheGates | src/commands/prompt.ts:34-59 | once every gate passes, the handler's calls and reply map are those of the placeholder, generation and relay stage, and the sender's current time is stored by the limiter |
| Prompt.LateRefusals | src/commands/prompt.ts:34-57 | past the rate limit, a non-text message and an empty prompt are refused, but the attempt is already counted |
| Prompt.ReplyRecorded | src/commands/prompt.ts:59-75 | after generation starts, the user's message maps to a bot reply and no other entry of the reply map changed |
| Prompt.ApologyIsNewReply | src/commands/prompt.ts:122-127 | when the generator throws, the apology is a new reply sent last; every call before it after generation is a plain edit of the placeholder |
| Prompt.RespondFailure | src/commands/prompt.ts:59-127 | when the generator throws after the placeholder is in place, the last call is the apology as a reply to the user's message, and every call between generation and it is a plain edit of the placeholder |
| Prompt.RelayFailure | src/commands/prompt.ts:86-127 | the relay's plain edits address the placeholder, and its apology is a reply to the user's message |
| Prompt.OnEditedMessage | src/commands/prompt.ts:135-145 | an edit is handled as an edited prompt exactly when it is text matching the command pattern (`Prompt.IsPromptCommand`); otherwise nothing happens |
| Prompt.CommandWordBoundary | src/commands/prompt.ts:141 | "/prompt" and "/p" alone or followed by white space satisfy `Prompt.IsPromptCommand`; "/prompt" followed by any character other than white space does not, and neither does "/p" followed by such a character other than "r", as in "/photo" |
| Prompt.NoSpaceNoPrompt | src/commands/prompt.ts:48-57 | a text without a space has an empty prompt, even when the prompt follows a line break |
| Whitelist.ResolveTarget | src/commands/whitelist.ts:16-45 | no argument targets the current chat; an `@username` is looked up, with a failed lookup meaning "not found"; a successful lookup resolves to the decimal string of the id it returned; a signed decimal is taken as typed; an argument is invalid exactly when it neither starts with `@` nor is a signed decimal; a resolved target always matches `^-?\d+$` |
| Whitelist.ChatCommand | src/commands/whitelist.ts:6-110 | only a caller satisfying `Checks.AdminCaller` (an admin with a non-zero id) reaches the store, and only with a resolved target; every such caller with a resolved target does reach the store with that target; for such a caller a failed lookup gets the not-found reply and an invalid argument the usage reply; the reply reports success or failure of the store call together with its confirmation reply; every other outcome is one of the refusals |
| Whitelist.FirstArgumentOnly | src/commands/whitelist.ts:23 | words after the first argument make no difference |
| Whitelist.BareAndTrailingSpace | src/commands/whitelist.ts:16-44 | the bare command targets the current chat, while a trailing space yields one empty argument, which is invalid |
| Whitelist.SameResolution | src/commands/whitelist.ts:16-45 | `/whitelist` and `/unwhitelist` hand the same target to the store under the same conditions |
| Blacklist.ResolveTarget | src/commands/blacklist.ts:16-28 | the sender of the replied-to message is the target unless that id is missing or 0; otherwise a first argument of digits is read with `parseInt`; a target is never 0 |
| Blacklist.BlacklistCommand | src/commands/blacklist.ts:6-59 | the refusals come in order (caller not `Checks.AdminCaller`, no target, target is an admin, chat not whitelisted); otherwise exactly the target's id string is added |
| Blacklist.UnblacklistCommand | src/commands/blacklist.ts:61-114 | the refusals come in order (caller not `Checks.AdminCaller`, no target, chat not whitelisted, target not listed); otherwise exactly the target's id string is removed; the list never grows |
| Blacklist.BlacklistAffectsOnlyTarget | src/commands/blacklist.ts:54 | after blacklisting, `Checks.IsBlacklisted` holds for the target and every other user's status is unchanged |
| Blacklist.BlacklistIdempotent | src/commands/blacklist.ts:54 | blacklisting twice leaves the same list as blacklisting once |
| Blacklist.UnblacklistUndoes | src/commands/blacklist.ts:54-109 | unblacklisting a freshly blacklisted user restores the previous list |
| Blacklist.UnblacklistSkipsAdminCheck | src/commands/blacklist.ts:40-45 | `/blacklist` refuses an admin target, while `/unblacklist` removes a listed admin like anyone else |
| Blacklist.StoredForm | src/commands/blacklist.ts:25-26 | a typed id is stored as typed exactly when it has no leading zero |
| ContextCommands.SetContext | src/commands/context.ts:10-64 | only private chats or admins (`ContextCommands.MayChange`) may set a context; a text without a space gets the usage reply; a context over 1000 UTF-16 code units is refused; the untrimmed text after the first space is stored exactly when all checks pass, and the reply reports whether the store call and its confirmation went through |
| ContextCommands.ViewContext | src/commands/context.ts:67-89 | a failed fetch (or a failed reply showing the context), a missing context and an empty context each get their fixed reply; any other context is shown verbatim after the header |
| ContextCommands.RemoveContext | src/commands/context.ts:92-119 | the store is called exactly for private chats or admins (`ContextCommands.MayChange`), and the reply reports whether the removal and its confirmation went through |
| ContextCommands.SetThenView | src/commands/context.ts:40-81 | a context stored by `/setcontext` is shown verbatim by `/context`, unless it is empty |
| ContextCommands.EmptyContextAccepted | src/commands/context.ts:28-40 | "/setcontext " followed by nothing stores the empty context |
| ContextCommands.LengthLimit | src/commands/context.ts:43 | the limit is inclusive and counts UTF-16 code units: 1000 characters of the Basic Multilingual Plane fit, as do 500 characters outside it, but 501 do not |

## Behaviour worth noting

Each point below is what the code does where a reader might expect
otherwise; the model follows the code.

- **Normalisation is not idempotent.** `**bold**` becomes `*bold*`, and a
  second pass gives `bold` (`MarkdownFacts.NotIdempotent`). Normalising
  twice equals normalising once only on star-free text
  (`MarkdownFacts.StarFreeIdempotent`).
- **An empty bullet swallows the line break.** The white space after a
  bullet's star may run through a line terminator, so `* ` on a line of its
  own merges with a following `* b` into `- - b`
  (`MarkdownFacts.EmptyBulletMerges`).
- **Failures reach the user as a new reply.** When the generator throws
  mid-stream, the apology is sent as a new reply to the user's message from
  the outer error handler, and the placeholder keeps its last content:
  "Thinking...", "Regenerating response..." or a partial answer
  (`Prompt.ApologyIsNewReply`). The same path follows a failed plain-text
  retry of the final edit and a final-edit error that has no description.
  Any other final-edit error is swallowed.
- **A pause alone never triggers an edit.** The interval is checked only when
  a fragment arrives, so text that arrived early stays unseen while the
  generator is silent, however long that lasts (`Relay.PauseAfterPrefix`).
- **Only the reply map is kept.** The bot remembers, per user message, the
  bot reply that answers it, and nothing else; there is no store of reply
  chains and no eviction.
- **The rate limit is ten seconds.** Accepted commands of one user are at
  least `RATE_LIMIT_SECONDS` = 10 seconds apart while the clock is
  non-decreasing.

## Left out

- The generator (`generateResponse` in the AI service) is not part of this
  model. Its fragments, their arrival times and whether it throws are
  inputs to the relay.
- The database services are not part of this model: the whitelist, the
  context store and `getChat`. A store call's success and a fetch's or
  lookup's answer are inputs.
- `isWhitelisted` is imported from `src/utils/checks.ts` but not defined
  there. The answer for the chat is an input, so the model does not decide
  whether an un-awaited asynchronous lookup could make the gate always pass.
- ContextCommands.SetContext: `/setcontext` awaits `isWhitelisted` for the
  chat before the authorisation check and outside any error handler
  (src/commands/context.ts:17), then never uses the answer. If that lookup
  rejects, the command ends with no reply and nothing stored. The model
  always replies, so it does not represent this path.
- Blacklist.BlacklistCommand: after adding the id to the in-memory set the
  handler awaits `saveBlacklist()`, a file write, outside any error handler
  (src/commands/blacklist.ts:55). If the write rejects, the set has already
  changed but the confirmation reply is never sent. The model does not
  represent the file and always replies.
- Blacklist.UnblacklistCommand: the same at src/commands/blacklist.ts:110,
  after removing the id from the set.
- Loading the blacklist file (`loadBlacklist`) is left out. The blacklist is
  the in-memory set, and its starting contents are an input.
- `/help`, `/start`, bot start-up and command registration, the constants
  file and the compiled `dist/` output are outside the modelled core.
- Telegram's routing of commands to handlers is left out; each handler is a
  function of its update. Concurrent handler runs interleaving on the shared
  maps are left out too.
- `console.error` logging is left out.
- Replies other than the placeholder and the edits of the streaming relay
  are assumed to be delivered. Where a confirmation reply shares an error
  handler with a store call (`/whitelist`, `/unwhitelist`, `/setcontext`,
  `/removecontext`), its failure is folded into `storeOk`: the failure
  reply is then sent although the store call went through, and the model
  records only that failure reply. Likewise a failed reply showing the
  context in `/context` counts as a failed fetch.
- The text of an error's description is reduced to the cases the handlers
  tell apart: "message is not modified", "can't parse entities", another
  description, and no description.
- Checks.IsRateLimited: timestamps are unbounded integers, and the division
  by 1000 is exact. For integer millisecond timestamps, floating-point
  rounding cannot change the comparison with 10.
- JsText.ParseNatToString: numbers are unbounded. `parseInt` and
  `toString` of ids beyond 2^53 lose precision as doubles, and that is not
  modelled.
- The `for await` loop over a generator that throws is modelled as throwing
  after its last yielded fragment. A throw before any fragment is the case
  with no fragments.

=== FILE: blacklist.dfy ===
/** `/blacklist` and `/unblacklist`: an admin names a user, by replying to one
    of their messages or by a numeric id, and the user's id string is added to
    or removed from the in-memory blacklist after a fixed sequence of
    refusals. Saving the list to disk is outside the model. */
module Blacklist {
  import opened Options
  import opened JsText
  import opened Checks

  const ONLY_ADMINS := "Only admins can use this command!"
  const CANNOT_BLACKLIST_ADMIN := "You can't blacklist an admin!"
  const CHAT_NOT_WHITELISTED := "This chat is not whitelisted!"
  const NOT_BLACKLISTED := "This user is not blacklisted!"

  const BLACKLIST_USAGE := "Please reply to a user's message or provide their numeric ID (e.g., /blacklist 123456789)."
  const UNBLACKLIST_USAGE := "Please reply to a user's message or provide their numeric ID (e.g., /unblacklist 123456789)."

  /** The target user: the sender of the replied-to message (`replySender`,
      missing when there is no such message or sender) unless that id is
      falsy, else a first argument of decimal digits read with `parseInt`; a
      target of 0 counts as none. */
  function ResolveTarget(replySender: Option<int>, text: string): (t: Option<int>)
    ensures t.Some? ==> t.value != 0
    ensures replySender.Some? && replySender.value != 0 ==> t == replySender
    ensures (replySender.None? || replySender.value == 0) && t.Some? ==>
              |Args(text)| > 0 && IsDigitString(Args(text)[0])
              && t.value == ParseDecimal(Args(text)[0]) && t.value > 0
    ensures (replySender.None? || replySender.value == 0) && t.None? ==>
              |Args(text)| == 0 || !IsDigitString(Args(text)[0]) || ParseDecimal(Args(text)[0]) == 0
  {
    if replySender.Some? && replySender.value != 0 then replySender
    else
      var args := Args(text);
      if |args| > 0 && IsDigitString(args[0]) && ParseDecimal(args[0]) != 0 then
        Some(ParseDecimal(args[0]))
      else None
  }

  /** The command's effect: the reply and the blacklist afterwards. */
  datatype Outcome = Outcome(reply: string, blacklist: set<string>)

  /** `/blacklist`. Refusals in order: caller not an admin, no target, target
      is an admin, chat not whitelisted; otherwise the target's id string is
      added. */
  function BlacklistCommand(adminsEnv: string, userId: Option<int>, chatWhitelisted: bool,
                            replySender: Option<int>, text: string, blacklist: set<string>): (o: Outcome)
    ensures o.blacklist == blacklist
            || (ResolveTarget(replySender, text).Some?
                && o.blacklist == blacklist + {IntToString(ResolveTarget(replySender, text).value)})
    ensures o.blacklist != blacklist ==> ResolveTarget(replySender, text).Some?
                                         && IntToString(ResolveTarget(replySender, text).value) !in blacklist
    ensures !AdminCaller(adminsEnv, userId) ==> o == Outcome(ONLY_ADMINS, blacklist)
    ensures AdminCaller(adminsEnv, userId) && ResolveTarget(replySender, text).None? ==>
              o == Outcome(BLACKLIST_USAGE, blacklist)
    ensures AdminCaller(adminsEnv, userId) && ResolveTarget(replySender, text).Some? ==>
              var target := ResolveTarget(replySender, text).value;
              if IsAdmin(adminsEnv, Num(target)) then o == Outcome(CANNOT_BLACKLIST_ADMIN, blacklist)
              else if !chatWhitelisted then o == Outcome(CHAT_NOT_WHITELISTED, blacklist)
              else o.blacklist == blacklist + {IntToString(target)}
                   && o.reply == "User " + IntToString(target) + " has been blacklisted."
  {
    if !AdminCaller(adminsEnv, userId) then Outcome(ONLY_ADMINS, blacklist)
    else
      match ResolveTarget(replySender, text)
      case None => Outcome(BLACKLIST_USAGE, blacklist)
      case Some(target) =>
        if IsAdmin(adminsEnv, Num(target)) then Outcome(CANNOT_BLACKLIST_ADMIN, blacklist)
        else if !chatWhitelisted then Outcome(CHAT_NOT_WHITELISTED, blacklist)
        else
          var id := IntToString(target);
          Outcome("User " + id + " has been blacklisted.", blacklist + {id})
  }

  /** `/unblacklist`. Refusals in order: caller not an admin, no target, chat
      not whitelisted, target not on the list; otherwise exactly the target's
      id string is removed. There is no check that the target is an admin. */
  function UnblacklistCommand(adminsEnv: string, userId: Option<int>, chatWhitelisted: bool,
                              replySender: Option<int>, text: string, blacklist: set<string>): (o: Outcome)
    ensures o.blacklist == blacklist
            || (ResolveTarget(replySender, text).Some?
                && o.blacklist == blacklist - {IntToString(ResolveTarget(replySender, text).value)})
    ensures o.blacklist <= blacklist
    ensures !AdminCaller(adminsEnv, userId) ==> o == Outcome(ONLY_ADMINS, blacklist)
    ensures AdminCaller(adminsEnv, userId) && ResolveTarget(replySender, text).None? ==>
              o == Outcome(UNBLACKLIST_USAGE, blacklist)
    ensures AdminCaller(adminsEnv, userId) && ResolveTarget(replySender, text).Some? ==>
              var target := ResolveTarget(replySender, text).value;
              if !chatWhitelisted then o == Outcome(CHAT_NOT_WHITELISTED, blacklist)
              else if IntToString(target) !in blacklist then o == Outcome(NOT_BLACKLISTED, blacklist)
              else o.blacklist == blacklist - {IntToString(target)}
                   && o.reply == "User " + IntToString(target) + " has been removed from the blacklist."
  {
    if !AdminCaller(adminsEnv, userId) then Outcome(ONLY_ADMINS, blacklist)
    else
      match ResolveTarget(replySender, text)
      case None => Outcome(UNBLACKLIST_USAGE, blacklist)
      case Some(target) =>
        var id := IntToString(target);
        if !chatWhitelisted then Outcome(CHAT_NOT_WHITELISTED, blacklist)
        else if id !in blacklist then Outcome(NOT_BLACKLISTED, blacklist)
        else Outcome("User " + id + " has been removed from the blacklist.", blacklist - {id})
  }

  /** Blacklisting the target makes `isBlacklisted` true for it and leaves
      every other user's answer as it was. */
  lemma BlacklistAffectsOnlyTarget(adminsEnv: string, userId: Option<int>, replySender: Option<int>,
                                   text: string, blacklist: set<string>, other: int)
    requires AdminCaller(adminsEnv, userId)
    requires ResolveTarget(replySender, text).Some?
    requires !IsAdmin(adminsEnv, Num(ResolveTarget(replySender, text).value))
    ensures var o := BlacklistCommand(adminsEnv, userId, true, replySender, text, blacklist);
            IsBlacklisted(o.blacklist, Num(ResolveTarget(replySender, text).value))
    ensures var o := BlacklistCommand(adminsEnv, userId, true, replySender, text, blacklist);
            other != ResolveTarget(replySender, text).value ==>
              (IsBlacklisted(o.blacklist, Num(other)) <==> IsBlacklisted(blacklist, Num(other)))
  {
    var target := ResolveTarget(replySender, text).value;
    if other != target && IntToString(other) == IntToString(target) {
      IntToStringInjective(other, target);
    }
  }

  /** Blacklisting a user already on the list changes nothing. */
  lemma BlacklistIdempotent(adminsEnv: string, userId: Option<int>, chatWhitelisted: bool,
                            replySender: Option<int>, text: string, blacklist: set<string>)
    ensures var once := BlacklistCommand(adminsEnv, userId, chatWhitelisted, replySender, text, blacklist);
            BlacklistCommand(adminsEnv, userId, chatWhitelisted, replySender, text, once.blacklist).blacklist
              == once.blacklist
  {
  }

  /** Unblacklisting undoes blacklisting a user that was not on the list. */
  lemma UnblacklistUndoes(adminsEnv: string, userId: Option<int>, replySender: Option<int>,
                          text: string, blacklist: set<string>)
    requires AdminCaller(adminsEnv, userId) && ResolveTarget(replySender, text).Some?
    requires !IsAdmin(adminsEnv, Num(ResolveTarget(replySender, text).value))
    requires !IsBlacklisted(blacklist, Num(ResolveTarget(replySender, text).value))
    ensures var added := BlacklistCommand(adminsEnv, userId, true, replySender, text, blacklist);
            UnblacklistCommand(adminsEnv, userId, true, replySender, text, added.blacklist).blacklist
              == blacklist
  {
    var id := IntToString(ResolveTarget(replySender, text).value);
    assert blacklist + {id} - {id} == blacklist;
  }

  /** `/unblacklist` removes an admin as readily as anyone else, while
      `/blacklist` refuses to add one. */
  lemma UnblacklistSkipsAdminCheck(adminsEnv: string, userId: Option<int>, replySender: Option<int>,
                                   text: string, blacklist: set<string>)
    requires AdminCaller(adminsEnv, userId) && ResolveTarget(replySender, text).Some?
    requires IsAdmin(adminsEnv, Num(ResolveTarget(replySender, text).value))
    requires IsBlacklisted(blacklist, Num(ResolveTarget(replySender, text).value))
    ensures BlacklistCommand(adminsEnv, userId, true, replySender, text, blacklist).reply == CANNOT_BLACKLIST_ADMIN
    ensures UnblacklistCommand(adminsEnv, userId, true, replySender, text, blacklist).blacklist
              == blacklist - {IntToString(ResolveTarget(replySender, text).value)}
  {
  }

  /** An id typed as an argument is stored in `parseInt`'s canonical form:
      digits without leading zeros stay as typed, "007" is stored as "7". */
  lemma StoredForm(s: string)
    requires IsDigitString(s) && ParseDecimal(s) != 0
    ensures IntToString(ParseDecimal(s)) == s <==> s[0] != '0'
  {
    ParseNatToString(ParseDecimal(s));
    if s[0] != '0' {
      NatToStringParse(s);
    }
  }
}

=== FILE: checks.dfy ===
/** The per-user rate limiter and the admin and blacklist predicates that every
    command consults before doing any work.

    The clock (`Date.now()`) is an explicit `now` parameter, the limiter's
    module-level map is threaded through as a value, the `ADMINS` environment
    variable is the raw string it is split from, and the blacklist is the
    in-memory set of user-id strings. */
module Checks {
  import opened Options
  import opened JsText

  /** The minimum gap between two accepted commands of one user, in seconds. */
  const RATE_LIMIT_SECONDS: int := 10

  /** Last accepted command time (milliseconds) per user id. */
  type RateLimits = map<int, int>

  /** The stored time for `user`, or 0 when there is none
      (`rateLimitMap.get(userId) || 0`; a stored 0 also reads as 0). */
  function LastCommandTime(limits: RateLimits, user: int): int {
    if user in limits then limits[user] else 0
  }

  /** The answer of one `isRateLimited` call and the limiter state after it. */
  datatype RateDecision = RateDecision(limited: bool, limits: RateLimits)

  /** `isRateLimited(userId)` at time `now`. The source divides the
      millisecond difference by 1000 and compares the quotient of seconds with
      `RATE_LIMIT_SECONDS`; the division is written out exactly. */
  function IsRateLimited(limits: RateLimits, user: int, now: int): (d: RateDecision)
    ensures d.limited <==> now - LastCommandTime(limits, user) < 1000 * RATE_LIMIT_SECONDS
    ensures d.limited ==> d.limits == limits
    ensures !d.limited ==> user in d.limits && d.limits[user] == now
    ensures d.limits.Keys == limits.Keys || d.limits.Keys == limits.Keys + {user}
    ensures forall u :: u in limits && u != user ==> u in d.limits && d.limits[u] == limits[u]
  {
    var seconds := (now - LastCommandTime(limits, user)) as real / 1000.0;
    if seconds < RATE_LIMIT_SECONDS as real then RateDecision(true, limits)
    else RateDecision(false, limits[user := now])
  }

  /** One command arriving at the limiter. */
  datatype Attempt = Attempt(user: int, now: int)

  /** The limiter state after a sequence of attempts, starting from `limits`. */
  function Replay(limits: RateLimits, attempts: seq<Attempt>): RateLimits
    decreases |attempts|
  {
    if |attempts| == 0 then limits
    else
      var last := attempts[|attempts| - 1];
      IsRateLimited(Replay(limits, attempts[..|attempts| - 1]), last.user, last.now).limits
  }

  /** Whether attempt `i` of the sequence was let through. */
  predicate Accepted(limits: RateLimits, attempts: seq<Attempt>, i: nat)
    requires i < |attempts|
  {
    !IsRateLimited(Replay(limits, attempts[..i]), attempts[i].user, attempts[i].now).limited
  }

  /** Timestamps never go backwards. */
  predicate NonDecreasing(attempts: seq<Attempt>) {
    forall a, b :: 0 <= a < b < |attempts| ==> attempts[a].now <= attempts[b].now
  }

  /** Once attempt `i` was accepted, the user's stored time stays at least
      that attempt's time: later acceptances store later times and refusals
      store nothing. */
  lemma {:induction false} StoredAfterAccept(limits: RateLimits, attempts: seq<Attempt>, i: nat, k: nat)
    requires NonDecreasing(attempts)
    requires i < k <= |attempts| && Accepted(limits, attempts, i)
    ensures attempts[i].user in Replay(limits, attempts[..k])
    ensures Replay(limits, attempts[..k])[attempts[i].user] >= attempts[i].now
    decreases k
  {
    var u := attempts[i].user;
    var prefix := attempts[..k];
    assert prefix[..k - 1] == attempts[..k - 1];
    assert prefix[k - 1] == attempts[k - 1];
    if k - 1 == i {
      assert Replay(limits, prefix) == IsRateLimited(Replay(limits, attempts[..i]), u, attempts[i].now).limits;
    } else {
      StoredAfterAccept(limits, attempts, i, k - 1);
      var before := Replay(limits, attempts[..k - 1]);
      var d := IsRateLimited(before, attempts[k - 1].user, attempts[k - 1].now);
      assert Replay(limits, prefix) == d.limits;
      if !d.limited && attempts[k - 1].user == u {
        assert attempts[i].now <= attempts[k - 1].now;
      }
    }
  }

  /** With a clock that never goes backwards, two accepted commands of the same
      user are at least `RATE_LIMIT_SECONDS` apart, however many refused
      attempts lie between them. */
  lemma AcceptedSpacing(limits: RateLimits, attempts: seq<Attempt>, i: nat, j: nat)
    requires NonDecreasing(attempts)
    requires i < j < |attempts| && attempts[i].user == attempts[j].user
    requires Accepted(limits, attempts, i) && Accepted(limits, attempts, j)
    ensures attempts[j].now - attempts[i].now >= 1000 * RATE_LIMIT_SECONDS
  {
    StoredAfterAccept(limits, attempts, i, j);
  }

  // ---------------------------------------------------------------------------
  // Admins and the blacklist

  /** A user id as the source passes it around: a number, or a string. */
  datatype UserRef = Num(id: int) | Text(text: string)

  /** `userId.toString()`. */
  function RefString(who: UserRef): string {
    match who
    case Num(n) => IntToString(n)
    case Text(s) => s
  }

  /** `ADMINS`: the environment variable split on commas, empty pieces kept. */
  function Admins(adminsEnv: string): (ids: seq<string>)
    ensures |ids| >= 1
  {
    Split(adminsEnv, ',')
  }

  /** `isAdmin(userId)`: the id's string form is one of the listed admins. */
  predicate IsAdmin(adminsEnv: string, who: UserRef) {
    RefString(who) in Admins(adminsEnv)
  }

  /** A caller the commands accept as an admin: `userId` is present, not the
      falsy 0, and listed (`!userId || !isAdmin(userId)` refuses). */
  predicate AdminCaller(adminsEnv: string, userId: Option<int>) {
    userId.Some? && userId.value != 0 && IsAdmin(adminsEnv, Num(userId.value))
  }

  /** `isBlacklisted(userId)`: the id's string form is in the blacklist. */
  predicate IsBlacklisted(blacklist: set<string>, who: UserRef) {
    RefString(who) in blacklist
  }

  /** An `ADMINS` value written as comma-joined ids (none holding a comma)
      makes exactly those ids admins. */
  lemma AdminsListed(ids: seq<string>, who: UserRef)
    requires |ids| >= 1
    requires forall k :: 0 <= k < |ids| ==> ',' !in ids[k]
    ensures IsAdmin(Join(ids, ','), who) <==> RefString(who) in ids
  {
    SplitJoin(ids, ',');
  }

  /** A decimal id typed in canonical form (no leading zero) is the same
      admin as the number it denotes, and distinct numeric ids never share an
      admin entry. */
  lemma AdminForms(adminsEnv: string, s: string, n: int, m: int)
    ensures IsDigitString(s) && (s[0] != '0' || |s| == 1) ==>
              IsAdmin(adminsEnv, Text(s)) == IsAdmin(adminsEnv, Num(ParseDecimal(s)))
    ensures n != m ==> RefString(Num(n)) != RefString(Num(m))
  {
    if IsDigitString(s) && (s[0] != '0' || |s| == 1) {
      NatToStringParse(s);
    }
    if n != m && IntToString(n) == IntToString(m) {
      IntToStringInjective(n, m);
    }
  }

  /** An id whose string form contains a comma is never an admin: splitting
      `ADMINS` on commas leaves no comma in any listed id. */
  lemma CommaNeverAdmin(adminsEnv: string, who: UserRef)
    requires ',' in RefString(who)
    ensures !IsAdmin(adminsEnv, who)
  {
    SplitPieces(adminsEnv, ',');
  }
}

=== FILE: context.dfy ===
/** `/setcontext`, `/context` and `/removecontext`: a per-chat system prompt
    that private-chat users and admins may set or remove and anyone may view.

    The context store is outside the model: a store call's success and the
    fetched context are inputs, and the result records what was handed to the
    store together with the reply. */
module ContextCommands {
  import opened Options
  import opened JsText
  import opened Checks

  /** The longest context accepted, in UTF-16 code units (`string.length`). */
  const MAX_CONTEXT_LENGTH: nat := 1000

  const SET_REFUSED := "Only admins in whitelisted chats can set context."
  const REMOVE_REFUSED := "Only admins in whitelisted chats can remove context."
  const SET_USAGE := "Please provide a context prompt. Usage: /setcontext Your context prompt here"
  const TOO_LONG := "Context prompt is too long. Maximum length is 1000 characters."
  const SET_DONE := "Context set successfully for this chat."
  const SET_FAILED := "Failed to set context. Please try again later."
  const VIEW_HEADER := "Current context for this chat:\n\n"
  const NO_CONTEXT := "No context set for this chat."
  const VIEW_FAILED := "Failed to retrieve context. Please try again later."
  const REMOVE_DONE := "Context removed successfully for this chat."
  const REMOVE_FAILED := "Failed to remove context. Please try again later."

  /** Private chats are open to everyone; elsewhere only admins may change the
      context. A missing or zero user id is not an admin. Whether the chat is
      whitelisted plays no part. */
  predicate MayChange(isPrivate: bool, adminsEnv: string, userId: Option<int>) {
    isPrivate || AdminCaller(adminsEnv, userId)
  }

  /** A command's effect: the reply, and whether the store was called (with
      what, for `/setcontext`). */
  datatype Outcome = Outcome(reply: string, stored: Option<string>)

  /** `/setcontext`: the context is everything after the first space, as
      typed (not trimmed). `storeOk` says whether the store call and the
      confirmation reply after it both succeeded; they share one error
      handler. */
  function SetContext(isPrivate: bool, adminsEnv: string, userId: Option<int>,
                      text: string, storeOk: bool): (o: Outcome)
    ensures !MayChange(isPrivate, adminsEnv, userId) ==> o == Outcome(SET_REFUSED, None)
    ensures MayChange(isPrivate, adminsEnv, userId) && ' ' !in text ==> o == Outcome(SET_USAGE, None)
    ensures (MayChange(isPrivate, adminsEnv, userId) && ' ' in text
             && Utf16Length(AfterFirst(text, ' ')) > MAX_CONTEXT_LENGTH) ==> o == Outcome(TOO_LONG, None)
    ensures o.stored.Some? <==>
              MayChange(isPrivate, adminsEnv, userId) && ' ' in text
              && Utf16Length(AfterFirst(text, ' ')) <= MAX_CONTEXT_LENGTH
    ensures o.stored.Some? ==> o.stored.value == AfterFirst(text, ' ')
                               && o.reply == (if storeOk then SET_DONE else SET_FAILED)
  {
    if !MayChange(isPrivate, adminsEnv, userId) then Outcome(SET_REFUSED, None)
    else
      var args := Split(text, ' ');
      SplitSingle(text, ' ');
      if |args| < 2 then Outcome(SET_USAGE, None)
      else
        SplitTailJoin(text, ' ');
        var prompt := Join(args[1..], ' ');
        if Utf16Length(prompt) > MAX_CONTEXT_LENGTH then Outcome(TOO_LONG, None)
        else Outcome(if storeOk then SET_DONE else SET_FAILED, Some(prompt))
  }

  /** `/context`: `fetched` is the store's answer, missing when the fetch
      throws or the reply answering it fails (both land in one error
      handler); an empty context reads as none. */
  function ViewContext(fetched: Option<Option<string>>): (reply: string)
    ensures fetched.None? ==> reply == VIEW_FAILED
    ensures fetched.Some? && (fetched.value.None? || fetched.value.value == "") ==> reply == NO_CONTEXT
    ensures fetched.Some? && fetched.value.Some? && fetched.value.value != "" ==>
              StartsWith(reply, VIEW_HEADER) && reply[|VIEW_HEADER|..] == fetched.value.value
  {
    match fetched
    case None => VIEW_FAILED
    case Some(None) => NO_CONTEXT
    case Some(Some(context)) =>
      if context == "" then NO_CONTEXT
      else
        HeaderThenBody(VIEW_HEADER, context);
        VIEW_HEADER + context
  }

  lemma HeaderThenBody(h: string, b: string)
    ensures StartsWith(h + b, h) && (h + b)[|h|..] == b
  {
    assert (h + b)[..|h|] == h;
  }

  /** `/removecontext`: `storeOk` says whether the removal and the
      confirmation reply after it both succeeded; the boolean result says
      whether the store was called. */
  function RemoveContext(isPrivate: bool, adminsEnv: string, userId: Option<int>,
                         storeOk: bool): (o: (string, bool))
    ensures o.1 <==> MayChange(isPrivate, adminsEnv, userId)
    ensures !o.1 ==> o.0 == REMOVE_REFUSED
    ensures o.1 ==> o.0 == (if storeOk then REMOVE_DONE else REMOVE_FAILED)
  {
    if !MayChange(isPrivate, adminsEnv, userId) then (REMOVE_REFUSED, false)
    else (if storeOk then REMOVE_DONE else REMOVE_FAILED, true)
  }

  /** A context stored by `/setcontext` and fetched back is shown verbatim
      after the header, unless it is empty. */
  lemma SetThenView(isPrivate: bool, adminsEnv: string, userId: Option<int>, text: string)
    requires SetContext(isPrivate, adminsEnv, userId, text, true).stored.Some?
    ensures var p := SetContext(isPrivate, adminsEnv, userId, text, true).stored.value;
            p != "" ==> ViewContext(Some(Some(p))) == VIEW_HEADER + p
    ensures var p := SetContext(isPrivate, adminsEnv, userId, text, true).stored.value;
            p == "" ==> ViewContext(Some(Some(p))) == NO_CONTEXT
  {
  }

  /** "/setcontext " with nothing after the space stores the empty context: the
      check counts words, not content. */
  lemma EmptyContextAccepted(isPrivate: bool, adminsEnv: string, userId: Option<int>, word: string)
    requires MayChange(isPrivate, adminsEnv, userId) && Count(word, ' ') == 0
    ensures SetContext(isPrivate, adminsEnv, userId, word + " ", true).stored == Some("")
  {
    CountAbsent(word, ' ');
    IndexOfPrefix(word, "", ' ');
    assert word + [' '] + "" == word + " ";
    assert (word + " ")[|word|] == ' ';
    assert (word + " ")[|word| + 1..] == "";
  }

  /** The limit is inclusive and counts UTF-16 code units: 1000 characters of
      the Basic Multilingual Plane are accepted, and so are 500 characters
      outside it, but not 501. */
  lemma LengthLimit(isPrivate: bool, adminsEnv: string, userId: Option<int>, word: string, body: string)
    requires MayChange(isPrivate, adminsEnv, userId) && Count(word, ' ') == 0
    ensures var o := SetContext(isPrivate, adminsEnv, userId, word + " " + body, true);
            (forall k :: 0 <= k < |body| ==> body[k] as int <= 0xFFFF) ==>
              (o.stored.Some? <==> |body| <= MAX_CONTEXT_LENGTH)
    ensures var o := SetContext(isPrivate, adminsEnv, userId, word + " " + body, true);
            (forall k :: 0 <= k < |body| ==> body[k] as int > 0xFFFF) ==>
              (o.stored.Some? <==> 2 * |body| <= MAX_CONTEXT_LENGTH)
  {
    CountAbsent(word, ' ');
    IndexOfPrefix(word, body, ' ');
    var t := word + " " + body;
    assert t == word + [' '] + body;
    assert t[|word|] == ' ';
    assert t[|word| + 1..] == body;
    assert AfterFirst(t, ' ') == body;
    if forall k :: 0 <= k < |body| ==> body[k] as int <= 0xFFFF {
      Utf16Bmp(body);
    }
    if forall k :: 0 <= k < |body| ==> body[k] as int > 0xFFFF {
      Utf16Astral(body);
    }
  }
}

=== FILE: jstext.dfy ===
/** The pieces of JavaScript string semantics the bot relies on, written out
    explicitly: the `\s` / `trim` whitespace set, `split` and `join` on a
    one-character separator, `Number.prototype.toString` and `parseInt(_, 10)`
    on integers, the `^\d+$` / `^-?\d+$` patterns, and `length` counted in
    UTF-16 code units. */
module JsText {

  /** ECMAScript LineTerminator: LF, CR, U+2028, U+2029. A regular-expression
      `.` never matches one, and a multiline `^` matches right after one. */
  predicate IsLineTerminator(c: char) {
    var n := c as int;
    n == 0x0A || n == 0x0D || n == 0x2028 || n == 0x2029
  }

  /** The set matched by `\s` and removed by `trim`: ECMAScript WhiteSpace
      together with LineTerminator. */
  predicate IsWhitespace(c: char) {
    var n := c as int;
    || IsLineTerminator(c)
    || n == 0x09 || n == 0x0B || n == 0x0C || n == 0x20 || n == 0xA0
    || n == 0x1680 || (0x2000 <= n <= 0x200A) || n == 0x202F || n == 0x205F
    || n == 0x3000 || n == 0xFEFF
  }

  // ---------------------------------------------------------------------------
  // Counting characters

  /** Number of occurrences of `c` in `s`. */
  function Count(s: string, c: char): nat {
    if |s| == 0 then 0 else (if s[0] == c then 1 else 0) + Count(s[1..], c)
  }

  lemma {:induction false} CountAppend(a: string, b: string, c: char)
    ensures Count(a + b, c) == Count(a, c) + Count(b, c)
    decreases |a|
  {
    if |a| > 0 {
      assert (a + b)[0] == a[0];
      assert (a + b)[1..] == a[1..] + b;
      CountAppend(a[1..], b, c);
    } else {
      assert a + b == b;
    }
  }

  lemma {:induction false} CountAbsent(s: string, c: char)
    ensures Count(s, c) == 0 <==> c !in s
    decreases |s|
  {
    if |s| > 0 {
      CountAbsent(s[1..], c);
      assert s == [s[0]] + s[1..];
    }
  }

  /** A slice never holds more occurrences than the whole string. */
  lemma CountSlice(s: string, i: nat, j: nat, c: char)
    requires i <= j <= |s|
    ensures Count(s[i..j], c) <= Count(s, c)
  {
    assert s == s[..i] + s[i..j] + s[j..];
    CountAppend(s[..i] + s[i..j], s[j..], c);
    CountAppend(s[..i], s[i..j], c);
  }

  // ---------------------------------------------------------------------------
  // split and join on a one-character separator

  /** Index of the first `sep` in `s`, or `|s|` when there is none. */
  function IndexOf(s: string, sep: char): (i: nat)
    ensures i <= |s|
    ensures i < |s| ==> s[i] == sep
    ensures forall k :: 0 <= k < i ==> s[k] != sep
    decreases |s|
  {
    if |s| == 0 then 0
    else if s[0] == sep then 0
    else 1 + IndexOf(s[1..], sep)
  }

  /** `s.split(sep)`: the pieces between consecutive separators, empty pieces
      included, so there is always at least one piece. */
  function Split(s: string, sep: char): (parts: seq<string>)
    ensures |parts| >= 1
    decreases |s|
  {
    var i := IndexOf(s, sep);
    if i == |s| then [s] else [s[..i]] + Split(s[i + 1..], sep)
  }

  /** A split has a single piece exactly when there is no separator. */
  lemma {:induction false} SplitSingle(s: string, sep: char)
    ensures |Split(s, sep)| == 1 <==> sep !in s
  {
    var i := IndexOf(s, sep);
    if i < |s| {
      assert s[i] == sep;
      assert |Split(s, sep)| == 1 + |Split(s[i + 1..], sep)|;
    }
  }

  /** No piece of a split contains the separator. */
  lemma {:induction false} SplitPieces(s: string, sep: char)
    ensures forall k :: 0 <= k < |Split(s, sep)| ==> sep !in Split(s, sep)[k]
    decreases |s|
  {
    var i := IndexOf(s, sep);
    if i < |s| {
      SplitPieces(s[i + 1..], sep);
      assert Split(s, sep) == [s[..i]] + Split(s[i + 1..], sep);
    }
  }

  /** `parts.join(sep)`. */
  function Join(parts: seq<string>, sep: char): string
    decreases |parts|
  {
    if |parts| == 0 then ""
    else if |parts| == 1 then parts[0]
    else parts[0] + [sep] + Join(parts[1..], sep)
  }

  /** Joining the pieces of a split gives the original string back. */
  lemma {:induction false} JoinSplit(s: string, sep: char)
    ensures Join(Split(s, sep), sep) == s
    decreases |s|
  {
    var i := IndexOf(s, sep);
    if i < |s| {
      var rest := Split(s[i + 1..], sep);
      var parts := [s[..i]] + rest;
      JoinSplit(s[i + 1..], sep);
      assert Split(s, sep) == parts;
      assert parts[0] == s[..i] && parts[1..] == rest;
      calc {
        Join(parts, sep);
        s[..i] + [sep] + Join(rest, sep);
        s[..i] + [sep] + s[i + 1..];
        { assert s[i] == sep; }
        s;
      }
    }
  }

  /** Splitting a join of separator-free pieces gives the pieces back. */
  lemma {:induction false} SplitJoin(parts: seq<string>, sep: char)
    requires |parts| >= 1
    requires forall k :: 0 <= k < |parts| ==> sep !in parts[k]
    ensures Split(Join(parts, sep), sep) == parts
    decreases |parts|
  {
    var first := parts[0];
    assert sep !in first;
    if |parts| == 1 {
      assert Join(parts, sep) == first;
      assert IndexOf(first, sep) == |first|;
    } else {
      var rest := Join(parts[1..], sep);
      var s := first + [sep] + rest;
      assert Join(parts, sep) == s;
      IndexOfPrefix(first, rest, sep);
      assert s[..|first|] == first;
      assert s[|first| + 1..] == rest;
      SplitJoin(parts[1..], sep);
      assert Split(s, sep) == [first] + Split(rest, sep);
      assert parts == [first] + parts[1..];
    }
  }

  lemma {:induction false} IndexOfPrefix(a: string, b: string, sep: char)
    requires sep !in a
    ensures IndexOf(a + [sep] + b, sep) == |a|
    decreases |a|
  {
    if |a| > 0 {
      assert (a + [sep] + b)[1..] == a[1..] + [sep] + b;
      IndexOfPrefix(a[1..], b, sep);
    }
  }

  /** The text after the first separator, or "" when there is no separator. */
  function AfterFirst(s: string, sep: char): (r: string)
    ensures sep !in s ==> r == ""
  {
    var i := IndexOf(s, sep);
    if i == |s| then "" else s[i + 1..]
  }

  /** `s.split(sep).slice(1).join(sep)` is the text after the first separator:
      every later separator, and every empty piece, survives the round trip. */
  lemma {:induction false} SplitTailJoin(s: string, sep: char)
    ensures Join(Split(s, sep)[1..], sep) == AfterFirst(s, sep)
  {
    var i := IndexOf(s, sep);
    if i < |s| {
      var rest := Split(s[i + 1..], sep);
      JoinSplit(s[i + 1..], sep);
      assert Split(s, sep) == [s[..i]] + rest;
      assert Split(s, sep)[1..] == rest;
      assert AfterFirst(s, sep) == s[i + 1..];
    } else {
      assert Split(s, sep) == [s];
    }
  }

  /** The words after a command: `text.split(" ").slice(1)`. */
  function Args(text: string): seq<string> {
    Split(text, ' ')[1..]
  }

  // ---------------------------------------------------------------------------
  // trim

  /** Number of whitespace characters at the start of `s`. */
  function LeadingSpace(s: string): (n: nat)
    ensures n <= |s|
    ensures forall k :: 0 <= k < n ==> IsWhitespace(s[k])
    ensures n < |s| ==> !IsWhitespace(s[n])
    decreases |s|
  {
    if |s| == 0 || !IsWhitespace(s[0]) then 0 else 1 + LeadingSpace(s[1..])
  }

  /** Length of `s` once its trailing whitespace is dropped. */
  function TrailingEnd(s: string): (n: nat)
    ensures n <= |s|
    ensures forall k :: n <= k < |s| ==> IsWhitespace(s[k])
    ensures n > 0 ==> !IsWhitespace(s[n - 1])
    decreases |s|
  {
    if |s| == 0 || !IsWhitespace(s[|s| - 1]) then |s| else TrailingEnd(s[..|s| - 1])
  }

  /** `s.trim()`: the longest slice of `s` that neither starts nor ends with
      whitespace, with only whitespace removed around it. */
  function Trim(s: string): (r: string)
    ensures |r| <= |s|
    ensures r == "" || (!IsWhitespace(r[0]) && !IsWhitespace(r[|r| - 1]))
    ensures r == "" <==> forall k :: 0 <= k < |s| ==> IsWhitespace(s[k])
    ensures (|s| == 0 || (!IsWhitespace(s[0]) && !IsWhitespace(s[|s| - 1]))) ==> r == s
  {
    var a := LeadingSpace(s);
    var t := s[a..];
    var b := TrailingEnd(t);
    TrimFacts(s, a, b);
    t[..b]
  }

  lemma TrimFacts(s: string, a: nat, b: nat)
    requires a == LeadingSpace(s) && b == TrailingEnd(s[a..])
    ensures s[a..][..b] == s[a..a + b]
    ensures b == 0 ==> forall k :: 0 <= k < |s| ==> IsWhitespace(s[k])
  {
    TrimEmpty(s, a, b);
  }

  /** Trimming never adds an occurrence of a character. */
  lemma TrimCount(s: string, c: char)
    ensures Count(Trim(s), c) <= Count(s, c)
  {
    var a := LeadingSpace(s);
    var b := TrailingEnd(s[a..]);
    TrimFacts(s, a, b);
    CountSlice(s, a, a + b, c);
  }

  /** `r` sits in `s` at offset `a` with nothing but whitespace around it. */
  predicate WhitespaceAround(s: string, a: nat, r: string) {
    a + |r| <= |s| && r == s[a..a + |r|]
    && (forall k :: 0 <= k < a ==> IsWhitespace(s[k]))
    && (forall k :: a + |r| <= k < |s| ==> IsWhitespace(s[k]))
  }

  /** What `trim` removes is whitespace on both sides of one contiguous piece
      of the input, and that piece is what it returns. */
  lemma TrimSlice(s: string)
    ensures exists a :: WhitespaceAround(s, a, Trim(s))
  {
    var a := LeadingSpace(s);
    var t := s[a..];
    var b := TrailingEnd(t);
    TrimFacts(s, a, b);
    assert Trim(s) == s[a..a + b];
    forall k | a + b <= k < |s|
      ensures IsWhitespace(s[k])
    {
      assert s[k] == t[k - a];
    }
    assert WhitespaceAround(s, a, Trim(s));
  }

  lemma TrimEmpty(s: string, a: nat, b: nat)
    requires a == LeadingSpace(s) && b == TrailingEnd(s[a..])
    ensures b == 0 ==> forall k :: 0 <= k < |s| ==> IsWhitespace(s[k])
  {
    var t := s[a..];
    assert forall k :: a <= k < |s| ==> s[k] == t[k - a];
  }

  // ---------------------------------------------------------------------------
  // Decimal integers

  predicate IsDigit(c: char) {
    '0' <= c <= '9'
  }

  predicate AllDigits(s: string) {
    forall k :: 0 <= k < |s| ==> IsDigit(s[k])
  }

  /** The pattern `^\d+$` (JavaScript's `\d` is ASCII only). */
  predicate IsDigitString(s: string) {
    |s| > 0 && AllDigits(s)
  }

  /** The pattern `^-?\d+$`. */
  predicate IsSignedDigitString(s: string) {
    IsDigitString(s) || (|s| > 1 && s[0] == '-' && IsDigitString(s[1..]))
  }

  function DigitChar(d: nat): (c: char)
    requires d < 10
    ensures IsDigit(c)
  {
    (48 + d) as char
  }

  function DigitValue(c: char): (d: nat)
    requires IsDigit(c)
    ensures d < 10
    ensures DigitChar(d) == c
  {
    c as int - 48
  }

  /** `n.toString()` for a natural number: its decimal digits, with no leading
      zero unless the number is zero. */
  function NatToString(n: nat): (s: string)
    ensures IsDigitString(s)
    ensures s[0] == '0' ==> s == "0"
    decreases n
  {
    if n < 10 then [DigitChar(n)] else NatToString(n / 10) + [DigitChar(n % 10)]
  }

  /** `n.toString()` for an integer: a minus sign before the digits of a
      negative number. */
  function IntToString(i: int): (s: string)
    ensures |s| > 0
    ensures i >= 0 <==> IsDigit(s[0])
    ensures i < 0 <==> s[0] == '-'
  {
    if i < 0 then "-" + NatToString(-i) else NatToString(i)
  }

  /** `parseInt(s, 10)` on a string of decimal digits. */
  function ParseDecimal(s: string): nat
    requires AllDigits(s)
    decreases |s|
  {
    if |s| == 0 then 0 else 10 * ParseDecimal(s[..|s| - 1]) + DigitValue(s[|s| - 1])
  }

  /** Every rendered integer matches `^-?\d+$`. */
  lemma IntToStringSigned(i: int)
    ensures IsSignedDigitString(IntToString(i))
  {
    if i < 0 {
      assert IntToString(i)[1..] == NatToString(-i);
    }
  }

  /** Parsing the rendering of a number gives the number back. */
  lemma {:induction false} ParseNatToString(n: nat)
    ensures ParseDecimal(NatToString(n)) == n
    decreases n
  {
    if n >= 10 {
      var s := NatToString(n);
      ParseNatToString(n / 10);
      assert s[..|s| - 1] == NatToString(n / 10);
    }
  }

  /** Rendering the value of a canonical digit string (no leading zero unless
      it is "0") gives the string back. */
  lemma {:induction false} NatToStringParse(s: string)
    requires IsDigitString(s)
    requires s[0] != '0' || |s| == 1
    ensures NatToString(ParseDecimal(s)) == s
    decreases |s|
  {
    if |s| > 1 {
      var p := s[..|s| - 1];
      ParsePositive(p);
      NatToStringParse(p);
      assert s == p + [s[|s| - 1]];
    }
  }

  lemma {:induction false} ParsePositive(s: string)
    requires IsDigitString(s) && s[0] != '0'
    ensures ParseDecimal(s) >= 1
    decreases |s|
  {
    if |s| > 1 {
      ParsePositive(s[..|s| - 1]);
    }
  }

  /** Different integers have different renderings. */
  lemma IntToStringInjective(a: int, b: int)
    requires IntToString(a) == IntToString(b)
    ensures a == b
  {
    if a < 0 {
      assert IntToString(a)[1..] == NatToString(-a);
      ParseNatToString(-a);
      ParseNatToString(-b);
    } else {
      ParseNatToString(a);
      ParseNatToString(b);
    }
  }

  // ---------------------------------------------------------------------------
  // Lengths and prefixes

  /** `s.length` in JavaScript: UTF-16 code units, two for a character outside
      the Basic Multilingual Plane. */
  function Utf16Length(s: string): (n: nat)
    ensures |s| <= n <= 2 * |s|
    decreases |s|
  {
    if |s| == 0 then 0 else (if s[0] as int > 0xFFFF then 2 else 1) + Utf16Length(s[1..])
  }

  /** Text inside the Basic Multilingual Plane has one code unit per
      character. */
  lemma {:induction false} Utf16Bmp(s: string)
    requires forall k :: 0 <= k < |s| ==> s[k] as int <= 0xFFFF
    ensures Utf16Length(s) == |s|
    decreases |s|
  {
    if |s| > 0 {
      assert forall k :: 0 <= k < |s| - 1 ==> s[1..][k] == s[k + 1];
      Utf16Bmp(s[1..]);
    }
  }

  /** Characters outside the Basic Multilingual Plane take two code units
      each. */
  lemma {:induction false} Utf16Astral(s: string)
    requires forall k :: 0 <= k < |s| ==> s[k] as int > 0xFFFF
    ensures Utf16Length(s) == 2 * |s|
    decreases |s|
  {
    if |s| > 0 {
      assert forall k :: 0 <= k < |s| - 1 ==> s[1..][k] == s[k + 1];
      Utf16Astral(s[1..]);
    }
  }

  /** `s.startsWith(p)`. */
  predicate StartsWith(s: string, p: string) {
    |p| <= |s| && s[..|p|] == p
  }
}

=== FILE: markdown.dfy ===
// `stripMarkdown` from the prompt relay: the normalisation applied once to
// the complete answer before the final edit. It is two global regular
// expression replacements followed by `trim`:
//
//   1. /^(\s*)\*\s+/gm -> "$1- ": a `*` bullet that opens a line becomes
//      "- " after the same indentation;
//   2. /\*(.+?)\*/g -> "$1": a same-line `*x*` loses its stars.
//
// Each replacement is written as a left-to-right scan that tries the pattern
// at the current position, exactly as a global `replace` does: after a match
// the scan resumes behind the match, otherwise one character further on.
module Markdown {
  import opened Options
  import opened JsText

  // ---------------------------------------------------------------------------
  // Bullets: /^(\s*)\*\s+/gm -> "$1- "

  /** End of the maximal whitespace run of `s` that starts at index `i`. */
  function SpaceEnd(s: string, i: nat): (j: nat)
    requires i <= |s|
    ensures i <= j <= |s|
    ensures forall k :: i <= k < j ==> IsWhitespace(s[k])
    ensures j < |s| ==> !IsWhitespace(s[j])
    decreases |s| - i
  {
    if i == |s| || !IsWhitespace(s[i]) then i else SpaceEnd(s, i + 1)
  }

  /** A match of the bullet pattern at the front of a string: the indentation
      `s[..indent]`, the star at `indent`, whitespace up to `end`. */
  datatype Bullet = Bullet(indent: nat, end: nat)

  /** Whether, and how, `(\s*)\*\s+` matches at the front of `s`. Both runs are
      greedy, and a star is not whitespace, so the indentation is the whole
      leading whitespace run and the match ends at the first non-whitespace
      character after the star. */
  function BulletAt(s: string): (b: Option<Bullet>)
    ensures b.Some? ==>
              && b.value.indent + 1 < b.value.end <= |s|
              && s[b.value.indent] == '*'
              && (forall i :: 0 <= i < b.value.indent ==> IsWhitespace(s[i]))
              && (forall i :: b.value.indent < i < b.value.end ==> IsWhitespace(s[i]))
              && (b.value.end == |s| || !IsWhitespace(s[b.value.end]))
    ensures b.None? ==>
              var k := LeadingSpace(s);
              k + 1 >= |s| || s[k] != '*' || !IsWhitespace(s[k + 1])
  {
    var k := LeadingSpace(s);
    if k < |s| && s[k] == '*' then
      var m := SpaceEnd(s, k + 1);
      if m > k + 1 then Some(Bullet(k, m)) else None
    else None
  }

  /** The global multiline bullet replacement over `s`. `lineStart` says
      whether `^` may match at the front of `s`: at the start of the text, or
      right after a line terminator (the character before, in the original
      text, even when an earlier match consumed it). */
  function RewriteBullets(s: string, lineStart: bool): (r: string)
    ensures |r| <= |s|
    ensures Count(r, '*') <= Count(s, '*')
    ensures Count(s, '*') == 0 ==> r == s
    decreases |s|
  {
    if |s| == 0 then ""
    else
      var b := if lineStart then BulletAt(s) else None;
      if b.Some? then
        var rest := RewriteBullets(s[b.value.end..], IsLineTerminator(s[b.value.end - 1]));
        BulletStep(s, b.value.indent, b.value.end, rest);
        s[..b.value.indent] + "- " + rest
      else
        var rest := RewriteBullets(s[1..], IsLineTerminator(s[0]));
        KeepStep(s, rest);
        [s[0]] + rest
  }

  /** Replacing a bullet match by its indentation and "- " shortens the text
      and removes the bullet's star. */
  lemma BulletStep(s: string, k: nat, m: nat, rest: string)
    requires k + 1 < m <= |s| && s[k] == '*'
    requires |rest| <= |s| - m
    requires Count(rest, '*') <= Count(s[m..], '*')
    ensures |s[..k] + "- " + rest| <= |s|
    ensures Count(s[..k] + "- " + rest, '*') < Count(s, '*')
  {
    assert s == s[..k] + s[k..m] + s[m..];
    CountAppend(s[..k] + s[k..m], s[m..], '*');
    CountAppend(s[..k], s[k..m], '*');
    assert s[k..m] == [s[k]] + s[k + 1..m];
    CountAppend([s[k]], s[k + 1..m], '*');
    CountAppend(s[..k] + "- ", rest, '*');
    CountAppend(s[..k], "- ", '*');
  }

  /** Copying the first character and rewriting the rest keeps the length
      bound, the star bound, and star-free text unchanged. */
  lemma KeepStep(s: string, rest: string)
    requires |s| > 0
    requires |rest| <= |s| - 1
    requires Count(rest, '*') <= Count(s[1..], '*')
    requires Count(s[1..], '*') == 0 ==> rest == s[1..]
    ensures Count([s[0]] + rest, '*') <= Count(s, '*')
    ensures Count(s, '*') == 0 ==> [s[0]] + rest == s
  {
    KeepCount(s, rest);
    KeepSame(s, rest);
  }

  lemma KeepCount(s: string, rest: string)
    requires |s| > 0
    requires Count(rest, '*') <= Count(s[1..], '*')
    ensures Count([s[0]] + rest, '*') <= Count(s, '*')
  {
    CountAppend([s[0]], rest, '*');
    assert s == [s[0]] + s[1..];
    CountAppend([s[0]], s[1..], '*');
  }

  lemma KeepSame(s: string, rest: string)
    requires |s| > 0
    requires Count(s[1..], '*') == 0 ==> rest == s[1..]
    ensures Count(s, '*') == 0 ==> [s[0]] + rest == s
  {
    assert [s[0]] + s[1..] == s;
  }

  // ---------------------------------------------------------------------------
  // Emphasis: /\*(.+?)\*/g -> "$1"

  /** First index at or after `i` that holds a line terminator, or `|s|`. */
  function BreakAt(s: string, i: nat): (e: nat)
    requires i <= |s|
    ensures i <= e <= |s|
    ensures forall t :: i <= t < e ==> !IsLineTerminator(s[t])
    ensures e < |s| ==> IsLineTerminator(s[e])
    decreases |s| - i
  {
    if i == |s| || IsLineTerminator(s[i]) then i else BreakAt(s, i + 1)
  }

  /** `s[i..j]` contains no line terminator, so `.` can match all of it. */
  predicate SameLine(s: string, i: nat, j: nat)
    requires i <= j <= |s|
  {
    forall t :: i <= t < j ==> !IsLineTerminator(s[t])
  }

  /** Where the closing star lies when `\*(.+?)\*` matches at the front of
      `s`: the lazy `.+?` takes at least one character and stops at the first
      star after it, and `.` never crosses a line terminator. */
  function CloseAt(s: string): (j: Option<nat>)
    ensures j.Some? ==>
              && 2 <= j.value < |s|
              && s[0] == '*' && s[j.value] == '*'
              && SameLine(s, 1, j.value)
              && (forall t :: 2 <= t < j.value ==> s[t] != '*')
    ensures j.None? && |s| > 0 && s[0] == '*' ==>
              forall t :: 2 <= t < |s| && s[t] == '*' ==> !SameLine(s, 1, t)
  {
    if |s| < 2 || s[0] != '*' then None
    else
      var e := BreakAt(s, 1);
      var j := 2 + IndexOf(s[2..], '*');
      assert forall t :: 2 <= t < j ==> s[t] == s[2..][t - 2];
      if j < e then Some(j) else None
  }

  /** The global emphasis replacement over `s`. */
  function StripEmphasis(s: string): (r: string)
    ensures |r| <= |s|
    ensures Count(r, '*') <= Count(s, '*')
    ensures Count(s, '*') == 0 ==> r == s
    decreases |s|
  {
    if |s| == 0 then ""
    else
      var j := CloseAt(s);
      if j.Some? then
        var rest := StripEmphasis(s[j.value + 1..]);
        EmphasisStep(s, j.value, rest);
        s[1..j.value] + rest
      else
        var rest := StripEmphasis(s[1..]);
        KeepStep(s, rest);
        [s[0]] + rest
  }

  /** Replacing `*x*` by `x` shortens the text by two and removes both stars. */
  lemma EmphasisStep(s: string, j: nat, rest: string)
    requires 2 <= j < |s| && s[0] == '*' && s[j] == '*'
    requires |rest| <= |s| - j - 1
    requires Count(rest, '*') <= Count(s[j + 1..], '*')
    ensures |s[1..j] + rest| + 2 <= |s|
    ensures Count(s[1..j] + rest, '*') + 2 <= Count(s, '*')
  {
    assert s == [s[0]] + s[1..j] + [s[j]] + s[j + 1..];
    CountAppend([s[0]] + s[1..j] + [s[j]], s[j + 1..], '*');
    CountAppend([s[0]] + s[1..j], [s[j]], '*');
    CountAppend([s[0]], s[1..j], '*');
    CountAppend(s[1..j], rest, '*');
  }

  // ---------------------------------------------------------------------------
  // stripMarkdown

  /** The normalisation applied to the complete answer. The result neither
      starts nor ends with whitespace, is never longer than the input, never
      has more stars, and star-free input is only trimmed. */
  function StripMarkdown(text: string): (r: string)
    ensures r == "" || (!IsWhitespace(r[0]) && !IsWhitespace(r[|r| - 1]))
    ensures |r| <= |text|
    ensures Count(r, '*') <= Count(text, '*')
    ensures '*' !in text ==> r == Trim(text)
  {
    CountAbsent(text, '*');
    var emphasisless := StripEmphasis(RewriteBullets(text, true));
    TrimCount(emphasisless, '*');
    Trim(emphasisless)
  }
}

// The lemmas below state what the two replacements do to concrete shapes of
// text, and pin the normalisation down on a few example answers. Example
// strings are passed as parameters fixed by `requires`, so that the verifier
// reasons about them through the general lemmas instead of unfolding the
// scans character by character.
module MarkdownFacts {
  import opened Options
  import opened JsText
  import opened Markdown

  predicate NoBreak(s: string) {
    forall i :: 0 <= i < |s| ==> !IsLineTerminator(s[i])
  }

  predicate AllSpace(s: string) {
    forall i :: 0 <= i < |s| ==> IsWhitespace(s[i])
  }

  /** Away from a line start, and with no line terminator to open a new line,
      the bullet pattern never matches. */
  lemma {:induction false} BulletsNeedLineStart(s: string)
    requires NoBreak(s)
    ensures RewriteBullets(s, false) == s
    decreases |s|
  {
    if |s| > 0 {
      BulletsNeedLineStart(s[1..]);
    }
  }

  /** A line opened by `indent`, a star and one space becomes the same
      indentation followed by "- ". */
  lemma BulletItem(indent: string, item: string)
    requires AllSpace(indent)
    requires |item| > 0 && !IsWhitespace(item[0]) && NoBreak(item)
    ensures RewriteBullets(indent + "* " + item, true) == indent + "- " + item
  {
    BulletOpens(indent, item);
    BulletsNeedLineStart(item);
  }

  /** A bullet line followed by more text: the bullet becomes "- " with its
      indentation kept, the rest of the line is copied, and the scan goes on
      at the start of the next line. */
  lemma BulletLine(indent: string, item: string, nl: char, rest: string)
    requires AllSpace(indent)
    requires |item| > 0 && !IsWhitespace(item[0]) && NoBreak(item) && IsLineTerminator(nl)
    ensures RewriteBullets(indent + "* " + item + [nl] + rest, true)
         == indent + "- " + (item + [nl] + RewriteBullets(rest, true))
  {
    var tail := item + [nl] + rest;
    assert indent + "* " + item + [nl] + rest == indent + "* " + tail;
    BulletOpens(indent, tail);
    PlainLine(item, nl, rest, false);
  }

  /** At a line start, indentation, a star and a single space before a
      non-white-space character are one bullet match; the scan resumes
      after it in the middle of the line. */
  lemma BulletOpens(indent: string, tail: string)
    requires AllSpace(indent)
    requires |tail| > 0 && !IsWhitespace(tail[0])
    ensures RewriteBullets(indent + "* " + tail, true) == indent + "- " + RewriteBullets(tail, false)
  {
    assert indent + "* " + tail == indent + "*" + " " + tail;
    BulletRun(indent, " ", tail);
  }

  /** The general bullet match: indentation, a star and any non-empty run of
      white space (line terminators included) up to a non-white-space
      character. The whole run is replaced by "- ", and the scan resumes at a
      line start exactly when the run ended with a line terminator. */
  lemma BulletRun(indent: string, ws: string, tail: string)
    requires AllSpace(indent) && |ws| > 0 && AllSpace(ws)
    requires |tail| > 0 && !IsWhitespace(tail[0])
    ensures RewriteBullets(indent + "*" + ws + tail, true)
         == indent + "- " + RewriteBullets(tail, IsLineTerminator(ws[|ws| - 1]))
  {
    var s := indent + "*" + ws + tail;
    var k := |indent|;
    var m := k + 1 + |ws|;
    assert s[..k] == indent && s[k] == '*' && s[k + 1..m] == ws && s[m..] == tail;
    BulletMatch(s, k, m, true);
  }

  /** Indentation, a star and a white-space run ending before a
      non-white-space character, found at a line start, are replaced by the
      indentation and "- ". */
  lemma BulletMatch(s: string, k: nat, m: nat, lineStart: bool)
    requires lineStart && k + 1 < m <= |s| && s[k] == '*'
    requires AllSpace(s[..k]) && AllSpace(s[k + 1..m])
    requires m == |s| || !IsWhitespace(s[m])
    ensures RewriteBullets(s, lineStart) == s[..k] + "- " + RewriteBullets(s[m..], IsLineTerminator(s[m - 1]))
  {
    assert BulletAt(s) == Some(Bullet(k, m)) by {
      SpaceSlice(s, 0, k);
      SpaceSlice(s, k + 1, m);
      SpaceRunEnd(s, 0, k);
      SpaceRunEnd(s, k + 1, m);
      BulletAtRun(s, k, m);
    }
    BulletTakeStep(s, k, m, lineStart);
  }

  lemma BulletAtRun(s: string, k: nat, m: nat)
    requires k + 1 < m <= |s| && s[k] == '*'
    requires LeadingSpace(s) == k && SpaceEnd(s, k + 1) == m
    ensures BulletAt(s) == Some(Bullet(k, m))
  {
  }

  lemma SpaceSlice(s: string, i: nat, j: nat)
    requires i <= j <= |s| && AllSpace(s[i..j])
    ensures forall t :: i <= t < j ==> IsWhitespace(s[t])
  {
    assert forall t :: i <= t < j ==> s[t] == s[i..j][t - i];
  }

  /** One step of the bullet scan where the pattern matches at a line start. */
  lemma BulletTakeStep(s: string, k: nat, m: nat, lineStart: bool)
    requires lineStart && k < m <= |s| && BulletAt(s) == Some(Bullet(k, m))
    ensures RewriteBullets(s, lineStart) == s[..k] + "- " + RewriteBullets(s[m..], IsLineTerminator(s[m - 1]))
  {
  }

  /** A white-space run from `i` that stops at `j`, before a non-white-space
      character or the end, is what `LeadingSpace` and `SpaceEnd` measure. */
  lemma SpaceRunEnd(s: string, i: nat, j: nat)
    requires i <= j <= |s|
    requires forall t :: i <= t < j ==> IsWhitespace(s[t])
    requires j == |s| || !IsWhitespace(s[j])
    ensures SpaceEnd(s, i) == j
    ensures i == 0 ==> LeadingSpace(s) == j
  {
  }

  /** An empty bullet line merges with the next line: the white space after
      its star runs through the line break, so the next line's bullet is
      rewritten as well and the two become one line ("* \n* b" becomes
      "- - b"). */
  lemma EmptyBulletMerges(indent: string, ws: string, item: string)
    requires AllSpace(indent)
    requires |ws| > 0 && AllSpace(ws) && IsLineTerminator(ws[|ws| - 1])
    requires |item| > 0 && !IsWhitespace(item[0]) && NoBreak(item)
    ensures RewriteBullets(indent + "*" + ws + ("* " + item), true) == indent + "- " + ("- " + item)
  {
    BareBullet(item);
    BulletRun(indent, ws, "* " + item);
  }

  lemma BareBullet(item: string)
    requires |item| > 0 && !IsWhitespace(item[0]) && NoBreak(item)
    ensures RewriteBullets("* " + item, true) == "- " + item
  {
    assert "* " + item == "" + "* " + item;
    BulletItem("", item);
  }

  /** One step of the bullet scan where the pattern does not match. */
  lemma BulletKeepStep(s: string, lineStart: bool)
    requires |s| > 0
    requires lineStart ==> BulletAt(s).None?
    ensures RewriteBullets(s, lineStart) == [s[0]] + RewriteBullets(s[1..], IsLineTerminator(s[0]))
  {
  }

  /** A line that does not open with a bullet is copied, up to and including
      its line terminator, and the scan continues at a line start. */
  lemma {:induction false} PlainLine(line: string, nl: char, rest: string, lineStart: bool)
    requires NoBreak(line) && IsLineTerminator(nl)
    requires lineStart ==> |line| > 0 && line[0] != '*' && !IsWhitespace(line[0])
    ensures RewriteBullets(line + [nl] + rest, lineStart) == line + [nl] + RewriteBullets(rest, true)
    decreases |line|
  {
    if |line| == 0 {
      assert line + [nl] + rest == [nl] + rest;
      LineEnd(nl, rest, lineStart);
      assert line + [nl] + RewriteBullets(rest, true) == [nl] + RewriteBullets(rest, true);
    } else {
      LineStep(line, nl, rest, lineStart);
      PlainLine(line[1..], nl, rest, false);
      Regroup(line, [nl], RewriteBullets(rest, true));
    }
  }

  lemma Regroup(line: string, mid: string, r: string)
    requires |line| > 0
    ensures [line[0]] + (line[1..] + mid + r) == line + mid + r
  {
    assert line == [line[0]] + line[1..];
  }

  lemma LineEnd(nl: char, rest: string, lineStart: bool)
    requires IsLineTerminator(nl) && !lineStart
    ensures RewriteBullets([nl] + rest, lineStart) == [nl] + RewriteBullets(rest, true)
  {
    assert ([nl] + rest)[1..] == rest;
  }

  lemma LineStep(line: string, nl: char, rest: string, lineStart: bool)
    requires |line| > 0 && NoBreak(line)
    requires lineStart ==> line[0] != '*' && !IsWhitespace(line[0])
    ensures RewriteBullets(line + [nl] + rest, lineStart)
         == [line[0]] + RewriteBullets(line[1..] + [nl] + rest, false)
  {
    var s := line + [nl] + rest;
    assert s[0] == line[0];
    if lineStart {
      assert LeadingSpace(s) == 0;
    }
    BulletKeepStep(s, lineStart);
    assert s[1..] == line[1..] + [nl] + rest;
  }

  /** Text without stars passes the emphasis scan unchanged, whatever follows. */
  lemma {:induction false} PlainPrefix(p: string, q: string)
    requires Count(p, '*') == 0
    ensures StripEmphasis(p + q) == p + StripEmphasis(q)
    decreases |p|
  {
    if |p| > 0 {
      var s := p + q;
      assert p[0] != '*' && Count(p[1..], '*') == 0;
      assert s[0] == p[0];
      assert CloseAt(s).None?;
      assert s[1..] == p[1..] + q;
      PlainPrefix(p[1..], q);
      assert StripEmphasis(s) == [s[0]] + StripEmphasis(s[1..]);
      assert p == [p[0]] + p[1..];
    } else {
      assert p + q == q;
    }
  }

  /** A same-line `*x*` loses its two stars. The first character of `x` may
      itself be a star: the lazy `.+?` must take at least one character, so
      the closing star is searched for from the second character of `x` on. */
  lemma Emphasis(x: string, rest: string)
    requires |x| >= 1 && NoBreak(x) && Count(x[1..], '*') == 0
    ensures StripEmphasis("*" + x + "*" + rest) == x + StripEmphasis(rest)
  {
    var s := "*" + x + "*" + rest;
    var j := |x| + 1;
    assert s[j] == '*' && s[0] == '*';
    CountAbsent(x[1..], '*');
    assert forall t :: 1 <= t < j ==> s[t] == x[t - 1];
    assert BreakAt(s, 1) > |x|;
    assert s[2..] == x[1..] + "*" + rest;
    IndexOfPrefix(x[1..], rest, '*');
    assert CloseAt(s) == Some(j);
    assert s[1..j] == x;
    assert s[j + 1..] == rest;
  }

  /** "*bold* and *more*" is normalised to "bold and more". */
  lemma BoldAndMore(s: string)
    requires s == "*bold* and *more*"
    ensures StripMarkdown(s) == "bold and more"
  {
    BoldAndMoreBullets(s);
    BoldAndMoreEmphasis(s);
    var r := "bold and more";
    assert r[0] == 'b' && r[|r| - 1] == 'e';
    LetterNotSpace('b');
    LetterNotSpace('e');
  }

  predicate IsAsciiLetter(c: char) {
    'A' <= c <= 'Z' || 'a' <= c <= 'z'
  }

  lemma LetterNotSpace(c: char)
    requires IsAsciiLetter(c)
    ensures !IsWhitespace(c)
  {
  }

  lemma BoldAndMoreBullets(s: string)
    requires s == "*bold* and *more*"
    ensures RewriteBullets(s, true) == s
  {
    assert NoBreak(s);
    StarWithoutSpace(s);
  }

  /** A line opening with a star that is not followed by whitespace is not a
      bullet, and a single line is then copied unchanged. */
  lemma StarWithoutSpace(s: string)
    requires |s| >= 2 && s[0] == '*' && !IsWhitespace(s[1]) && NoBreak(s)
    ensures RewriteBullets(s, true) == s
  {
    assert NoBreak(s[1..]);
    BulletsNeedLineStart(s[1..]);
    assert LeadingSpace(s) == 0 && SpaceEnd(s, 1) == 1;
    assert s == [s[0]] + s[1..];
  }

  lemma BoldAndMoreEmphasis(s: string)
    requires s == "*bold* and *more*"
    ensures StripEmphasis(s) == "bold and more"
  {
    var x, y, z := "bold", " and ", "more";
    assert x[1..] == "old" && z[1..] == "ore";
    assert Count("old", '*') == 0 && Count(y, '*') == 0 && Count("ore", '*') == 0;
    assert NoBreak(x) && NoBreak(z);
    assert s == "*" + x + "*" + (y + ("*" + z + "*"));
    TwoEmphases(x, y, z);
    BoldAndMoreWords();
  }

  /** Two same-line emphasised words separated by star-free text. */
  lemma TwoEmphases(x: string, y: string, z: string)
    requires |x| >= 1 && NoBreak(x) && Count(x[1..], '*') == 0
    requires Count(y, '*') == 0
    requires |z| >= 1 && NoBreak(z) && Count(z[1..], '*') == 0
    ensures StripEmphasis("*" + x + "*" + (y + ("*" + z + "*"))) == x + (y + z)
  {
    var tail := "*" + z + "*";
    assert tail == "*" + z + "*" + "";
    Emphasis(z, "");
    assert StripEmphasis(tail) == z;
    PlainPrefix(y, tail);
    Emphasis(x, y + tail);
  }

  lemma BoldAndMoreWords()
    ensures "bold" + (" and " + "more") == "bold and more"
  {
  }

  /** Star-free text that starts and ends with an ASCII letter comes back
      unchanged. */
  lemma Unformatted(text: string)
    requires Count(text, '*') == 0
    requires |text| > 0 && IsAsciiLetter(text[0]) && IsAsciiLetter(text[|text| - 1])
    ensures StripMarkdown(text) == text
  {
    CountAbsent(text, '*');
    LetterNotSpace(text[0]);
    LetterNotSpace(text[|text| - 1]);
  }

  /** Text without stars is only trimmed, so a second pass changes nothing. */
  lemma StarFreeIdempotent(text: string)
    requires Count(text, '*') == 0
    ensures StripMarkdown(StripMarkdown(text)) == StripMarkdown(text)
  {
    CountAbsent(text, '*');
    var r := StripMarkdown(text);
    assert r == Trim(text);
    CountAbsent(r, '*');
  }

  /** Stripping is not idempotent. In "**bold**" the first star opens an
      emphasis whose lazy content must hold at least one character, so it
      takes the second star and closes at the star after "bold"; the last
      star is left over and a second pass removes the remaining pair. */
  lemma NotIdempotent(s: string)
    requires s == "**bold**"
    ensures StripMarkdown(s) == "*bold*"
    ensures StripMarkdown(StripMarkdown(s)) == "bold"
    ensures StripMarkdown(StripMarkdown(s)) != StripMarkdown(s)
  {
    StripDoubled(s);
    StripSingle(StripMarkdown(s));
  }

  lemma StripDoubled(s: string)
    requires s == "**bold**"
    ensures StripMarkdown(s) == "*bold*"
  {
    assert NoBreak(s);
    StarWithoutSpace(s);
    var x := s[1..6];
    assert x == "*bold";
    assert x[1..] == "bold";
    assert Count("bold", '*') == 0;
    assert NoBreak(x);
    assert s == "*" + x + "*" + "*";
    Emphasis(x, "*");
    assert x + "*" == "*bold*";
  }

  lemma StripSingle(t: string)
    requires t == "*bold*"
    ensures StripMarkdown(t) == "bold"
  {
    assert NoBreak(t);
    StarWithoutSpace(t);
    var x := t[1..5];
    assert x == "bold";
    assert x[1..] == "old";
    assert Count("old", '*') == 0;
    assert NoBreak(x);
    assert t == "*" + x + "*" + "";
    Emphasis(x, "");
    assert x[0] == 'b' && x[|x| - 1] == 'd';
    LetterNotSpace('b');
    LetterNotSpace('d');
  }
}

=== FILE: options.dfy ===
/** The optional-value datatype used throughout the model for JavaScript's
    `undefined` (a missing sender, a missing map entry, a failed lookup). */
module Options {

  datatype Option<+T> = None | Some(value: T)
}

=== FILE: prompt.dfy ===
/** `handlePrompt` and the edited-message hook around it: the gates a prompt
    passes, the extraction of the prompt text, the placeholder message and the
    map from a user's message to the bot's reply, and the streaming relay the
    placeholder is then handed to.

    Telegram calls become actions in the result, their answers and the
    generator's fragments are inputs, and the two module-level maps (rate
    limits and replies) are threaded through as an explicit state. Whether the
    chat is whitelisted is an input as well. */
module Prompt {
  import opened Options
  import opened JsText
  import opened Checks
  import opened Relay

  const BLACKLISTED_REPLY := "You are blacklisted and cannot use this bot!"
  const NOT_WHITELISTED_REPLY := "Sorry, I can't respond here!"
  const TEXT_ONLY_REPLY := "This command only works with text messages."
  const USAGE_REPLY := "Please provide a prompt! Usage: /prompt or /p <your question>"
  const THINKING := "Thinking..."
  const REGENERATING := "Regenerating response..."
  const APOLOGY := "Sorry, something went wrong. Please try again!"

  /** The incoming message: a new `/prompt` command or an edit of one.
      `userId` is missing for anonymous senders; `text` is missing for
      non-text messages. */
  datatype Update = Update(chatId: int, userId: Option<int>, messageId: int,
                           text: Option<string>, edited: bool)

  /** The blacklist, and the answer of the whitelist lookup for this chat. */
  datatype Env = Env(blacklist: set<string>, chatWhitelisted: bool)

  /** The process-wide maps: rate limits, and user message id to bot reply id. */
  datatype State = State(limits: RateLimits, replies: map<int, int>)

  /** What the outside world answers: the id of the "Thinking..." message
      (missing when sending it fails), whether the "Regenerating" edit went
      through, and the generator's fragments with the final edits' outcomes. */
  datatype Remote = Remote(placeholder: Option<int>, regenerated: bool, start: int,
                           frags: seq<Fragment>, generatorFails: bool,
                           first: EditOutcome, retry: EditOutcome)

  /** A Telegram call the handler makes, or the start of generation. */
  datatype Action =
    | Reply(text: string, replyTo: int)
    | EditMessage(messageId: int, text: string, markdown: bool)
    | Generate(prompt: string)

  datatype Handled = Handled(actions: seq<Action>, state: State)

  /** `text.split(" ").slice(1).join(" ").trim()`: everything after the first
      space, trimmed. */
  function ExtractPrompt(text: string): (p: string)
    ensures p == Trim(AfterFirst(text, ' '))
    ensures ' ' !in text ==> p == ""
  {
    SplitTailJoin(text, ' ');
    Trim(Join(Split(text, ' ')[1..], ' '))
  }

  /** `!userId`: no sender, or the falsy id 0. */
  predicate NoUser(u: Update) {
    u.userId.None? || u.userId.value == 0
  }

  /** The placeholder step's result: the bot message the stream will edit
      (missing when the step failed), the calls made, and the reply map. */
  datatype Placed = Placed(bot: Option<int>, actions: seq<Action>, replies: map<int, int>)

  /** An edited message with a known reply reuses that reply and edits it to
      "Regenerating response..."; otherwise "Thinking..." is sent and its id
      recorded. A failure of either call ends in the apology. */
  function Placeholder(replies: map<int, int>, u: Update, remote: Remote): (r: Placed)
    ensures |r.actions| >= 1
    ensures u.edited && u.messageId in replies ==>
              r.actions[0] == EditMessage(replies[u.messageId], REGENERATING, false)
              && r.replies == replies
              && (r.bot.Some? ==> r.bot.value == replies[u.messageId])
    ensures !(u.edited && u.messageId in replies) ==>
              r.actions[0] == Reply(THINKING, u.messageId)
              && (r.bot.Some? ==> r.replies == replies[u.messageId := r.bot.value])
    ensures r.bot.Some? ==> u.messageId in r.replies && r.replies[u.messageId] == r.bot.value
                            && |r.actions| == 1
    ensures r.bot.None? ==> r.replies == replies && r.actions == [r.actions[0], Reply(APOLOGY, u.messageId)]
    ensures u.edited && u.messageId in replies ==> (r.bot.Some? <==> remote.regenerated)
    ensures !(u.edited && u.messageId in replies) ==> r.bot == remote.placeholder
  {
    if u.edited && u.messageId in replies then
      var bot := replies[u.messageId];
      var edit := EditMessage(bot, REGENERATING, false);
      if remote.regenerated then Placed(Some(bot), [edit], replies)
      else Placed(None, [edit, Reply(APOLOGY, u.messageId)], replies)
    else
      var thinking := Reply(THINKING, u.messageId);
      match remote.placeholder
      case Some(bot) => Placed(Some(bot), [thinking], replies[u.messageId := bot])
      case None => Placed(None, [thinking, Reply(APOLOGY, u.messageId)], replies)
  }

  /** The relay's calls addressed to the bot message, the apology as a reply to
      the user's message. */
  function RelayActions(bot: int, replyTo: int, calls: seq<Call>): (acts: seq<Action>)
    ensures |acts| == |calls|
    ensures forall k :: 0 <= k < |calls| ==>
              acts[k] == (match calls[k]
                          case Edit(t, md) => EditMessage(bot, t, md)
                          case Apology => Reply(APOLOGY, replyTo))
  {
    seq(|calls|, k requires 0 <= k < |calls| =>
      match calls[k]
      case Edit(t, md) => EditMessage(bot, t, md)
      case Apology => Reply(APOLOGY, replyTo))
  }

  /** Everything after the gates: the placeholder, then generation and the
      relay when the placeholder is in place. */
  function Respond(prompt: string, replies: map<int, int>, u: Update, remote: Remote): (r: Placed)
    ensures var p := Placeholder(replies, u, remote);
            r.bot == p.bot && r.replies == p.replies
            && |r.actions| >= |p.actions| && r.actions[..|p.actions|] == p.actions
    ensures r.bot.Some? ==>
              |r.actions| >= 2 && r.actions[1] == Generate(prompt)
              && r.actions[2..] == RelayActions(r.bot.value, u.messageId,
                                                StreamReply(remote.start, remote.frags, remote.generatorFails,
                                                            remote.first, remote.retry))
    ensures r.bot.None? ==> r.actions == Placeholder(replies, u, remote).actions
  {
    var p := Placeholder(replies, u, remote);
    match p.bot
    case None => p
    case Some(bot) =>
      var calls := StreamReply(remote.start, remote.frags, remote.generatorFails, remote.first, remote.retry);
      var relayed := RelayActions(bot, u.messageId, calls);
      Around(p.actions, Generate(prompt), relayed);
      Placed(p.bot, p.actions + [Generate(prompt)] + relayed, p.replies)
  }

  lemma Around<T>(a: seq<T>, x: T, b: seq<T>)
    ensures (a + [x] + b)[..|a|] == a && (a + [x] + b)[|a|] == x && (a + [x] + b)[|a| + 1..] == b
  {
  }

  /** `handlePrompt` for one update at clock reading `now`, with the outside
      world's answers in `remote`. The gates run in order: no sender,
      blacklisted sender, chat not whitelisted, rate limit, missing text, empty
      prompt; only then is a placeholder made. */
  function HandlePrompt(env: Env, st: State, u: Update, now: int, remote: Remote): (h: Handled)
    ensures NoUser(u) ==> h == Handled([], st)
    ensures !NoUser(u) && IsBlacklisted(env.blacklist, Num(u.userId.value)) ==>
              h == Handled([Reply(BLACKLISTED_REPLY, u.messageId)], st)
    ensures !NoUser(u) && !IsBlacklisted(env.blacklist, Num(u.userId.value)) && !env.chatWhitelisted ==>
              h == Handled([Reply(NOT_WHITELISTED_REPLY, u.messageId)], st)
    ensures !NoUser(u) && !IsBlacklisted(env.blacklist, Num(u.userId.value)) && env.chatWhitelisted ==>
              var d := IsRateLimited(st.limits, u.userId.value, now);
              h.state.limits == d.limits
              && (d.limited ==> h == Handled([], st))
  {
    if NoUser(u) then Handled([], st)
    else
      var user := u.userId.value;
      if IsBlacklisted(env.blacklist, Num(user)) then
        Handled([Reply(BLACKLISTED_REPLY, u.messageId)], st)
      else if !env.chatWhitelisted then
        Handled([Reply(NOT_WHITELISTED_REPLY, u.messageId)], st)
      else
        var d := IsRateLimited(st.limits, user, now);
        if d.limited then Handled([], st)
        else
          var st' := st.(limits := d.limits);
          match u.text
          case None => Handled([Reply(TEXT_ONLY_REPLY, u.messageId)], st')
          case Some(text) =>
            var prompt := ExtractPrompt(text);
            if prompt == "" then Handled([Reply(USAGE_REPLY, u.messageId)], st')
            else
              var r := Respond(prompt, st.replies, u, remote);
              Handled(r.actions, st'.(replies := r.replies))
  }

  /** Whether the handler started generation. */
  predicate Generates(actions: seq<Action>) {
    exists k :: 0 <= k < |actions| && actions[k].Generate?
  }

  /** Every gate passes: a sender that is not blacklisted, a whitelisted chat,
      no rate limit, a text message and a non-empty prompt. */
  predicate PassesGates(env: Env, st: State, u: Update, now: int) {
    !NoUser(u) && !IsBlacklisted(env.blacklist, Num(u.userId.value))
    && env.chatWhitelisted
    && !IsRateLimited(st.limits, u.userId.value, now).limited
    && u.text.Some? && ExtractPrompt(u.text.value) != ""
  }

  /** The handler only reaches the placeholder when every gate passed.
      Generation starts exactly then, when the placeholder is in place too,
      and it is given the extracted prompt. */
  lemma GatesBeforeWork(env: Env, st: State, u: Update, now: int, remote: Remote)
    ensures var h := HandlePrompt(env, st, u, now, remote);
            (Generates(h.actions)
             <==> PassesGates(env, st, u, now) && Placeholder(st.replies, u, remote).bot.Some?)
    ensures var h := HandlePrompt(env, st, u, now, remote);
            Generates(h.actions) ==> h.actions[1] == Generate(ExtractPrompt(u.text.value))
  {
    var h := HandlePrompt(env, st, u, now, remote);
    if PassesGates(env, st, u, now) {
      PastTheGates(env, st, u, now, remote);
      var p := Placeholder(st.replies, u, remote);
      if p.bot.None? {
        assert forall k :: 0 <= k < |h.actions| ==> !h.actions[k].Generate?;
      }
    } else {
      assert |h.actions| <= 1 && (|h.actions| == 1 ==> h.actions[0].Reply?);
    }
  }

  /** Past the rate limit, a non-text message and an empty prompt are refused
      with a reply, yet the attempt has already been counted by the limiter. */
  lemma LateRefusals(env: Env, st: State, u: Update, now: int, remote: Remote)
    requires !NoUser(u) && !IsBlacklisted(env.blacklist, Num(u.userId.value)) && env.chatWhitelisted
    requires !IsRateLimited(st.limits, u.userId.value, now).limited
    ensures var h := HandlePrompt(env, st, u, now, remote);
            u.text.None? ==> h.actions == [Reply(TEXT_ONLY_REPLY, u.messageId)]
    ensures var h := HandlePrompt(env, st, u, now, remote);
            u.text.Some? && ExtractPrompt(u.text.value) == "" ==> h.actions == [Reply(USAGE_REPLY, u.messageId)]
    ensures var h := HandlePrompt(env, st, u, now, remote);
            h.state.limits == st.limits[u.userId.value := now]
  {
  }

  /** Once every gate passed, the handler's calls and reply map are those of
      the placeholder, generation and relay stage, and the limiter has stored
      the current time for the sender. */
  lemma PastTheGates(env: Env, st: State, u: Update, now: int, remote: Remote)
    requires PassesGates(env, st, u, now)
    ensures var h := HandlePrompt(env, st, u, now, remote);
            var r := Respond(ExtractPrompt(u.text.value), st.replies, u, remote);
            h.actions == r.actions && h.state.replies == r.replies
            && h.state.limits == st.limits[u.userId.value := now]
  {
  }

  /** After a prompt that got its placeholder, the user's message maps to the
      bot message being edited, and no other entry of the reply map changed. */
  lemma ReplyRecorded(env: Env, st: State, u: Update, now: int, remote: Remote)
    requires PassesGates(env, st, u, now) && Placeholder(st.replies, u, remote).bot.Some?
    ensures var h := HandlePrompt(env, st, u, now, remote);
            u.messageId in h.state.replies
            && forall m :: m != u.messageId && m in st.replies ==>
                 m in h.state.replies && h.state.replies[m] == st.replies[m]
  {
    PastTheGates(env, st, u, now, remote);
  }

  /** When the generator throws, the user gets the apology as a new reply to
      their message, sent last; everything between the start of generation and
      the apology is a plain edit of the placeholder, which keeps whatever it
      showed last. */
  lemma ApologyIsNewReply(env: Env, st: State, u: Update, now: int, remote: Remote)
    requires PassesGates(env, st, u, now) && Placeholder(st.replies, u, remote).bot.Some?
    requires remote.generatorFails
    ensures var h := HandlePrompt(env, st, u, now, remote);
            |h.actions| >= 3 && h.actions[|h.actions| - 1] == Reply(APOLOGY, u.messageId)
    ensures var h := HandlePrompt(env, st, u, now, remote);
            var bot := Placeholder(st.replies, u, remote).bot.value;
            forall k :: 2 <= k < |h.actions| - 1 ==>
              h.actions[k].EditMessage? && h.actions[k].messageId == bot && !h.actions[k].markdown
  {
    PastTheGates(env, st, u, now, remote);
    RespondFailure(ExtractPrompt(u.text.value), st.replies, u, remote);
  }

  /** The stage after the gates, when the generator throws: the placeholder
      call, generation, plain edits of the placeholder, and the apology as a
      new reply. */
  lemma RespondFailure(prompt: string, replies: map<int, int>, u: Update, remote: Remote)
    requires Placeholder(replies, u, remote).bot.Some? && remote.generatorFails
    ensures var r := Respond(prompt, replies, u, remote);
            |r.actions| >= 3 && r.actions[|r.actions| - 1] == Reply(APOLOGY, u.messageId)
    ensures var r := Respond(prompt, replies, u, remote);
            var bot := Placeholder(replies, u, remote).bot.value;
            forall k :: 2 <= k < |r.actions| - 1 ==>
              r.actions[k].EditMessage? && r.actions[k].messageId == bot && !r.actions[k].markdown
  {
    var bot := Placeholder(replies, u, remote).bot.value;
    var r := Respond(prompt, replies, u, remote);
    var calls := StreamReply(remote.start, remote.frags, remote.generatorFails, remote.first, remote.retry);
    StreamFails(remote.start, remote.frags, remote.generatorFails, remote.first, remote.retry);
    RelayFailure(bot, u.messageId, calls);
    AfterGenerate(r.actions, bot, u.messageId);
  }

  /** Plain edits of the placeholder `bot`, then the apology as a reply to
      `replyTo`. */
  predicate EditsThenApology(acts: seq<Action>, bot: int, replyTo: int) {
    |acts| >= 1 && acts[|acts| - 1] == Reply(APOLOGY, replyTo)
    && forall k :: 0 <= k < |acts| - 1 ==>
         acts[k].EditMessage? && acts[k].messageId == bot && !acts[k].markdown
  }

  /** Plain edits of the relay become plain edits of the placeholder, and its
      apology becomes a reply to the user's message. */
  lemma RelayFailure(bot: int, replyTo: int, calls: seq<Call>)
    requires PlainEditsThenApology(calls)
    ensures EditsThenApology(RelayActions(bot, replyTo, calls), bot, replyTo)
  {
  }

  lemma AfterGenerate(acts: seq<Action>, bot: int, replyTo: int)
    requires |acts| >= 2 && EditsThenApology(acts[2..], bot, replyTo)
    ensures |acts| >= 3 && acts[|acts| - 1] == Reply(APOLOGY, replyTo)
    ensures forall k :: 2 <= k < |acts| - 1 ==>
              acts[k].EditMessage? && acts[k].messageId == bot && !acts[k].markdown
  {
    assert acts[|acts| - 1] == acts[2..][|acts| - 3];
    forall k | 2 <= k < |acts| - 1
      ensures acts[k].EditMessage? && acts[k].messageId == bot && !acts[k].markdown
    {
      assert acts[k] == acts[2..][k - 2];
    }
  }

  /** `/^\/(prompt|p)(?:\s|$)/`: "/prompt" or "/p" at the very start,
      followed by whitespace or the end of the text. */
  predicate IsPromptCommand(text: string) {
    CommandAt(text, "/prompt") || CommandAt(text, "/p")
  }

  /** `name` opens `text` and is followed by whitespace or nothing. */
  predicate CommandAt(text: string, name: string) {
    StartsWith(text, name) && (|text| == |name| || IsWhitespace(text[|name|]))
  }

  /** The edited-message hook: non-text edits and edits that no longer start
      with the command are ignored; the rest are handled as edited prompts. */
  function OnEditedMessage(env: Env, st: State, u: Update, now: int, remote: Remote): (h: Handled)
    requires u.edited
    ensures u.text.None? ==> h == Handled([], st)
    ensures u.text.Some? && !IsPromptCommand(u.text.value) ==> h == Handled([], st)
    ensures u.text.Some? && IsPromptCommand(u.text.value) ==> h == HandlePrompt(env, st, u, now, remote)
  {
    match u.text
    case None => Handled([], st)
    case Some(text) =>
      if IsPromptCommand(text) then HandlePrompt(env, st, u, now, remote) else Handled([], st)
  }

  /** The command word ends at whitespace: "/p", "/p hi" and "/prompt\nhi"
      are prompts; "/prompt" followed by anything but whitespace is not, nor is
      "/p" followed by anything but whitespace or the "r" of "/prompt" (so
      "/photo" is not). */
  lemma CommandWordBoundary(name: string, rest: string, c: char)
    requires name == "/prompt" || name == "/p"
    ensures IsPromptCommand(name)
    ensures IsWhitespace(c) ==> IsPromptCommand(name + [c] + rest)
    ensures !IsWhitespace(c) && name == "/prompt" ==> !IsPromptCommand(name + [c] + rest)
    ensures !IsWhitespace(c) && c != 'r' && name == "/p" ==> !IsPromptCommand(name + [c] + rest)
  {
    var t := name + [c] + rest;
    assert t[..|name|] == name;
    assert t[|name|] == c;
    if name == "/prompt" {
      assert t[..2] == "/p";
      assert t[2] == 'r';
    } else if !IsWhitespace(c) && c != 'r' {
      assert t[2] == c;
      assert "/prompt"[2] == 'r';
    }
  }

  /** A prompt written after a line break instead of a space is not seen: with
      no space in the text the extracted prompt is empty. */
  lemma NoSpaceNoPrompt(text: string)
    requires Count(text, ' ') == 0
    ensures ExtractPrompt(text) == ""
  {
    CountAbsent(text, ' ');
  }
}

=== FILE: relay.dfy ===
/** The streaming relay at the heart of `handlePrompt`: generated fragments are
    appended to a buffer, the placeholder message is edited with the buffer at
    most once per `UPDATE_INTERVAL`, and a final Markdown edit shows the
    normalised text, falling back to plain text when Telegram cannot parse it.

    Every remote call is an explicit outcome carried by the input, and every
    reading of the clock is an explicit timestamp, so the relay is a pure fold
    over a finite sequence of fragment events. */
module Relay {
  import opened JsText
  import opened Markdown
  import opened MarkdownFacts

  /** Minimum time between two intermediate edits, in milliseconds. */
  const UPDATE_INTERVAL: int := 3000

  const PROCESSING := "Processing..."
  const DONE := "Done!"

  /** How Telegram answers one `editMessageText` call. */
  datatype EditOutcome =
    | Edited          // the edit went through
    | NotModified     // an error whose description mentions "message is not modified"
    | CantParse       // an error whose description mentions "can't parse entities"
    | OtherError      // an error with any other description
    | Undescribed     // an error without a description: reading it throws

  /** One fragment from the generator: its text, the clock reading taken right
      after it arrived, and how an edit issued at that moment would end. */
  datatype Fragment = Fragment(chunk: string, time: int, edit: EditOutcome)

  /** An intermediate edit that was issued: the text and the time it was sent. */
  datatype Sent = Sent(text: string, time: int)

  /** The streaming loop's state. `consumed` fragments have been appended;
      `aborted` means an intermediate edit failed and the loop was left. */
  datatype Loop = Loop(buffer: string, lastUpdate: int, sent: seq<Sent>, consumed: nat, aborted: bool)

  /** The text of all fragments, in order. */
  function Concat(frags: seq<Fragment>): string
    decreases |frags|
  {
    if |frags| == 0 then "" else Concat(frags[..|frags| - 1]) + frags[|frags| - 1].chunk
  }

  /** An intermediate edit only goes through on success or on "not modified". */
  predicate Continues(e: EditOutcome) {
    e == Edited || e == NotModified
  }

  /** The text an intermediate edit shows: the buffer, or a stand-in when it is
      still empty. */
  function Shown(buffer: string): (t: string)
    ensures |t| > 0
    ensures t == buffer || (buffer == "" && t == PROCESSING)
  {
    if buffer == "" then PROCESSING else buffer
  }

  /** Handles one fragment of the loop. */
  function Step(s: Loop, f: Fragment): (r: Loop)
    requires !s.aborted
    ensures r.buffer == s.buffer + f.chunk && r.consumed == s.consumed + 1
    ensures |r.sent| == |s.sent| + 1 <==> f.time - s.lastUpdate >= UPDATE_INTERVAL
    ensures |r.sent| == |s.sent| ==> r.sent == s.sent && r.lastUpdate == s.lastUpdate && !r.aborted
    ensures |r.sent| == |s.sent| + 1 ==>
              r.sent == s.sent + [Sent(Shown(r.buffer), f.time)]
              && (r.aborted <==> !Continues(f.edit))
              && (!r.aborted ==> r.lastUpdate == f.time)
  {
    var buffer := s.buffer + f.chunk;
    if f.time - s.lastUpdate >= UPDATE_INTERVAL then
      var sent := s.sent + [Sent(Shown(buffer), f.time)];
      if Continues(f.edit) then Loop(buffer, f.time, sent, s.consumed + 1, false)
      else Loop(buffer, s.lastUpdate, sent, s.consumed + 1, true)
    else
      Loop(buffer, s.lastUpdate, s.sent, s.consumed + 1, false)
  }

  /** Consecutive intermediate edits, the first measured from `start`, are at
      least `UPDATE_INTERVAL` apart. */
  predicate Spaced(start: int, sent: seq<Sent>) {
    (|sent| > 0 ==> sent[0].time - start >= UPDATE_INTERVAL)
    && forall k :: 0 < k < |sent| ==> sent[k].time - sent[k - 1].time >= UPDATE_INTERVAL
  }

  /** Every intermediate edit shows a prefix of `buffer`, or the stand-in. */
  predicate ShowsPrefixes(sent: seq<Sent>, buffer: string) {
    forall k :: 0 <= k < |sent| ==> sent[k].text == PROCESSING || sent[k].text <= buffer
  }

  /** The time the loop measures the next interval from. */
  function LastSent(start: int, sent: seq<Sent>): int {
    if |sent| == 0 then start else sent[|sent| - 1].time
  }

  /** The `for await` loop over the fragments, started at clock reading
      `start`. Once an intermediate edit fails the remaining fragments are
      not consumed. */
  function Run(start: int, frags: seq<Fragment>): (r: Loop)
    ensures r.consumed <= |frags|
    ensures r.buffer == Concat(frags[..r.consumed])
    ensures !r.aborted ==> r.consumed == |frags| && r.lastUpdate == LastSent(start, r.sent)
    ensures r.aborted ==> 0 < r.consumed && 0 < |r.sent|
                          && r.sent[|r.sent| - 1].time == frags[r.consumed - 1].time
                          && !Continues(frags[r.consumed - 1].edit)
    ensures Spaced(start, r.sent)
    ensures ShowsPrefixes(r.sent, r.buffer)
    decreases |frags|
  {
    if |frags| == 0 then Loop("", start, [], 0, false)
    else
      var s := Run(start, frags[..|frags| - 1]);
      if s.aborted then
        RunAborted(start, frags, s);
        s
      else
        var r := Step(s, frags[|frags| - 1]);
        RunStep(start, frags, s, r);
        r
  }

  /** A loop that stopped early on a prefix stays stopped on the whole input. */
  lemma RunAborted(start: int, frags: seq<Fragment>, s: Loop)
    requires 0 < |frags| && s.aborted
    requires var init := frags[..|frags| - 1];
             s.consumed <= |init| && s.buffer == Concat(init[..s.consumed])
             && 0 < s.consumed && 0 < |s.sent|
             && s.sent[|s.sent| - 1].time == init[s.consumed - 1].time
             && !Continues(init[s.consumed - 1].edit)
    ensures s.consumed <= |frags|
    ensures s.buffer == Concat(frags[..s.consumed])
    ensures 0 < s.consumed && 0 < |s.sent|
            && s.sent[|s.sent| - 1].time == frags[s.consumed - 1].time
            && !Continues(frags[s.consumed - 1].edit)
  {
    var init := frags[..|frags| - 1];
    assert init[..s.consumed] == frags[..s.consumed];
    assert init[s.consumed - 1] == frags[s.consumed - 1];
  }

  /** The loop invariants survive one more fragment. */
  lemma RunStep(start: int, frags: seq<Fragment>, s: Loop, r: Loop)
    requires |frags| > 0 && !s.aborted
    requires var init := frags[..|frags| - 1];
             s.consumed == |init| && s.buffer == Concat(init[..s.consumed])
    requires s.lastUpdate == LastSent(start, s.sent)
    requires Spaced(start, s.sent) && ShowsPrefixes(s.sent, s.buffer)
    requires r == Step(s, frags[|frags| - 1])
    ensures r.consumed <= |frags|
    ensures r.buffer == Concat(frags[..r.consumed])
    ensures !r.aborted ==> r.consumed == |frags| && r.lastUpdate == LastSent(start, r.sent)
    ensures r.aborted ==> 0 < r.consumed && 0 < |r.sent|
                          && r.sent[|r.sent| - 1].time == frags[r.consumed - 1].time
                          && !Continues(frags[r.consumed - 1].edit)
    ensures Spaced(start, r.sent)
    ensures ShowsPrefixes(r.sent, r.buffer)
  {
    var init := frags[..|frags| - 1];
    assert init[..s.consumed] == init;
    assert frags[..r.consumed] == frags;
    forall k | 0 <= k < |s.sent| && s.sent[k].text != PROCESSING
      ensures s.sent[k].text <= r.buffer
    {
      PrefixExtend(s.sent[k].text, s.buffer, frags[|frags| - 1].chunk);
    }
  }

  lemma PrefixExtend(p: string, b: string, c: string)
    requires p <= b
    ensures p <= b + c
  {
    assert (b + c)[..|p|] == b[..|p|];
  }

  /** The spacing bounds the number of intermediate edits by the elapsed time:
      `n` edits need at least `n * UPDATE_INTERVAL` milliseconds. */
  lemma {:induction false} EditBudget(start: int, sent: seq<Sent>)
    requires Spaced(start, sent) && |sent| > 0
    ensures sent[|sent| - 1].time - start >= |sent| * UPDATE_INTERVAL
    decreases |sent|
  {
    if |sent| > 1 {
      var p := sent[..|sent| - 1];
      assert Spaced(start, p);
      EditBudget(start, p);
    }
  }

  // ---------------------------------------------------------------------------
  // The whole reply

  /** A call the relay makes: an edit of the placeholder message (with or
      without Markdown parsing) or the apology reply. */
  datatype Call = Edit(text: string, markdown: bool) | Apology

  /** The apology reply sent from the outer error handler. */
  predicate IsApology(c: Call) {
    c.Apology?
  }

  /** The text of the final edit: the normalised buffer, or a stand-in when
      normalising leaves nothing. */
  function FinalText(buffer: string): (t: string)
    ensures |t| > 0
    ensures t == StripMarkdown(buffer) || (StripMarkdown(buffer) == "" && t == DONE)
  {
    var stripped := StripMarkdown(buffer);
    if stripped == "" then DONE else stripped
  }

  /** The calls made once the loop has finished: the Markdown edit of `text`,
      the plain-text retry when Markdown is rejected, and the apology when the
      error escapes its handler. `first` and `retry` are the outcomes of the
      two edits. */
  function FinalEdits(text: string, first: EditOutcome, retry: EditOutcome): (calls: seq<Call>)
    ensures |calls| >= 1 && calls[0] == Edit(text, true)
    ensures |calls| >= 2 <==> first == CantParse || first == Undescribed
    ensures first == CantParse ==> calls[1] == Edit(text, false)
    ensures (IsApology(calls[|calls| - 1])
             <==> first == Undescribed || (first == CantParse && retry != Edited))
    ensures forall k :: 0 <= k < |calls| - 1 ==> !IsApology(calls[k])
    ensures |calls| == 1 + (if first == CantParse then 1 else 0)
                         + (if first == Undescribed || (first == CantParse && retry != Edited) then 1 else 0)
  {
    var markdown := [Edit(text, true)];
    match first
    case CantParse =>
      markdown + [Edit(text, false)] + (if retry == Edited then [] else [Apology])
    case Undescribed => markdown + [Apology]
    case _ => markdown
  }

  /** The intermediate edits as calls: plain text, no parse mode. */
  function Intermediate(sent: seq<Sent>): (calls: seq<Call>)
    ensures |calls| == |sent|
    ensures forall k :: 0 <= k < |sent| ==> calls[k] == Edit(sent[k].text, false)
  {
    seq(|sent|, k requires 0 <= k < |sent| => Edit(sent[k].text, false))
  }

  /** Everything the relay sends after the placeholder exists: the intermediate
      edits, then either the final edit sequence or, when an intermediate edit
      failed or the generator threw (`generatorFails`, after yielding all of
      `frags`), the apology alone. */
  function StreamReply(start: int, frags: seq<Fragment>, generatorFails: bool,
                       first: EditOutcome, retry: EditOutcome): (calls: seq<Call>)
    ensures |calls| >= 1
    ensures forall k :: 0 <= k < |calls| - 1 ==> !IsApology(calls[k])
    ensures var l := Run(start, frags);
            |calls| > |l.sent| && calls[..|l.sent|] == Intermediate(l.sent)
  {
    var l := Run(start, frags);
    if l.aborted || generatorFails then Intermediate(l.sent) + [Apology]
    else Intermediate(l.sent) + FinalEdits(FinalText(l.buffer), first, retry)
  }

  /** Exactly one apology is sent, as the last call, precisely when an
      intermediate edit failed, the generator threw, or the final edit failed in
      a way that escapes its handler; otherwise the final Markdown edit shows
      the normalised text of every fragment. */
  lemma StreamReplyOutcome(start: int, frags: seq<Fragment>, generatorFails: bool,
                           first: EditOutcome, retry: EditOutcome)
    ensures var calls := StreamReply(start, frags, generatorFails, first, retry);
            var l := Run(start, frags);
            (IsApology(calls[|calls| - 1])
             <==> l.aborted || generatorFails || first == Undescribed
                  || (first == CantParse && retry != Edited))
    ensures var calls := StreamReply(start, frags, generatorFails, first, retry);
            var l := Run(start, frags);
            !l.aborted && !generatorFails ==>
              calls[|l.sent|] == Edit(FinalText(Concat(frags)), true)
    ensures var calls := StreamReply(start, frags, generatorFails, first, retry);
            var l := Run(start, frags);
            l.aborted || generatorFails ==> |calls| == |l.sent| + 1
  {
    var l := Run(start, frags);
    var calls := StreamReply(start, frags, generatorFails, first, retry);
    if l.aborted || generatorFails {
      StreamFails(start, frags, generatorFails, first, retry);
    } else {
      StreamFinishes(start, frags, first, retry);
      var fin := FinalEdits(FinalText(Concat(frags)), first, retry);
      Tail(Intermediate(l.sent), fin);
    }
  }

  lemma Tail<T>(a: seq<T>, b: seq<T>)
    requires |b| > 0
    ensures (a + b)[|a|] == b[0] && (a + b)[|a + b| - 1] == b[|b| - 1]
  {
  }

  /** A failed intermediate edit or a throwing generator leaves only the
      apology after the intermediate edits. */
  lemma StreamFails(start: int, frags: seq<Fragment>, generatorFails: bool,
                    first: EditOutcome, retry: EditOutcome)
    requires Run(start, frags).aborted || generatorFails
    ensures StreamReply(start, frags, generatorFails, first, retry)
            == Intermediate(Run(start, frags).sent) + [Apology]
    ensures PlainEditsThenApology(StreamReply(start, frags, generatorFails, first, retry))
  {
    var calls := StreamReply(start, frags, generatorFails, first, retry);
    var sent := Run(start, frags).sent;
    assert forall k :: 0 <= k < |calls| - 1 ==> calls[k] == Edit(sent[k].text, false);
  }

  /** Plain-text edits followed by the apology. */
  predicate PlainEditsThenApology(calls: seq<Call>) {
    |calls| >= 1 && calls[|calls| - 1] == Apology
    && forall k :: 0 <= k < |calls| - 1 ==> calls[k].Edit? && !calls[k].markdown
  }

  /** A stream that ran to its end is followed by the final edits of the
      normalised text of every fragment. */
  lemma StreamFinishes(start: int, frags: seq<Fragment>, first: EditOutcome, retry: EditOutcome)
    requires !Run(start, frags).aborted
    ensures StreamReply(start, frags, false, first, retry)
            == Intermediate(Run(start, frags).sent) + FinalEdits(FinalText(Concat(frags)), first, retry)
  {
    var l := Run(start, frags);
    assert frags[..l.consumed] == frags;
  }

  /** While less than `UPDATE_INTERVAL` has passed since `start`, no
      intermediate edit is made and the loop runs to the end. */
  lemma {:induction false} QuietStream(start: int, frags: seq<Fragment>)
    requires forall i :: 0 <= i < |frags| ==> frags[i].time - start < UPDATE_INTERVAL
    ensures Run(start, frags).sent == [] && !Run(start, frags).aborted
    decreases |frags|
  {
    if |frags| > 0 {
      var init := frags[..|frags| - 1];
      assert forall i :: 0 <= i < |init| ==> init[i] == frags[i];
      QuietStream(start, init);
    }
  }

  /** Fragments "Hel", "lo " and "world" arriving within the first interval
      produce one call only: the final Markdown edit of "Hello world". */
  lemma QuickReply(start: int, frags: seq<Fragment>, first: EditOutcome, retry: EditOutcome)
    requires |frags| == 3
    requires frags[0].chunk == "Hel" && frags[1].chunk == "lo " && frags[2].chunk == "world"
    requires forall i :: 0 <= i < 3 ==> frags[i].time - start < UPDATE_INTERVAL
    requires first == Edited || first == NotModified || first == OtherError
    ensures StreamReply(start, frags, false, first, retry) == [Edit("Hello world", true)]
  {
    QuietStream(start, frags);
    var l := Run(start, frags);
    assert l.buffer == Concat(frags) by {
      assert frags[..l.consumed] == frags;
    }
    HelloWorldConcat(frags);
    HelloWorldText(l.buffer);
    assert Intermediate(l.sent) == [];
    assert FinalEdits("Hello world", first, retry) == [Edit("Hello world", true)];
  }

  lemma HelloWorldConcat(frags: seq<Fragment>)
    requires |frags| == 3
    requires frags[0].chunk == "Hel" && frags[1].chunk == "lo " && frags[2].chunk == "world"
    ensures Concat(frags) == "Hello world"
  {
    assert frags[..1][..0] == [];
    assert Concat(frags[..1]) == "" + "Hel";
    assert frags[..2][..1] == frags[..1];
    assert Concat(frags[..2]) == "" + "Hel" + "lo ";
    assert frags[..3] == frags;
    assert Concat(frags) == "" + "Hel" + "lo " + "world";
    HelloWorldWords();
  }

  lemma HelloWorldWords()
    ensures "" + "Hel" + "lo " + "world" == "Hello world"
  {
  }

  lemma HelloWorldText(t: string)
    requires t == "Hello world"
    ensures FinalText(t) == t
  {
    assert Count("Hello world", '*') == 0;
    assert t[0] == 'H' && t[|t| - 1] == 'd';
    Unformatted(t);
  }

  /** "Hello " arriving five seconds after the start is shown at once, and a
      fragment that follows within the next interval adds no edit. */
  lemma PauseShowsPrefix(start: int, frags: seq<Fragment>)
    requires |frags| == 2
    requires frags[0] == Fragment("Hello ", start + 5000, Edited)
    requires frags[1].time < start + 5000 + UPDATE_INTERVAL
    ensures Run(start, frags).sent == [Sent("Hello ", start + 5000)]
    ensures !Run(start, frags).aborted
  {
    assert frags[..1][..0] == [];
    var s1 := Run(start, frags[..1]);
    assert s1 == Loop("Hello ", start + 5000, [Sent("Hello ", start + 5000)], 1, false) by {
      var s0 := Loop("", start, [], 0, false);
      assert Run(start, frags[..1][..0]) == s0;
      assert frags[..1][0] == frags[0];
      assert s1 == Step(s0, frags[0]);
      assert "" + "Hello " == "Hello ";
      assert Shown("Hello ") == "Hello ";
      assert [] + [Sent("Hello ", start + 5000)] == [Sent("Hello ", start + 5000)];
    }
    assert frags[..2][..1] == frags[..1];
    assert Run(start, frags[..2]) == Step(s1, frags[1]);
    assert frags[..2] == frags;
  }

  /** A pause on its own never triggers an edit: the interval is only checked
      when a fragment arrives. "Hello " arriving within the first interval is
      not shown, however long the generator then stays silent; the next
      fragment, arriving after the interval, brings the whole buffer. */
  lemma PauseAfterPrefix(start: int, frags: seq<Fragment>)
    requires |frags| == 2
    requires frags[0].chunk == "Hello " && frags[0].time - start < UPDATE_INTERVAL
    requires frags[1].chunk == "world" && frags[1].time - start >= UPDATE_INTERVAL
    requires Continues(frags[1].edit)
    ensures Run(start, frags).sent == [Sent("Hello world", frags[1].time)]
    ensures !Run(start, frags).aborted
  {
    assert frags[..1][..0] == [];
    var s1 := Run(start, frags[..1]);
    assert s1 == Loop("Hello ", start, [], 1, false) by {
      var s0 := Loop("", start, [], 0, false);
      assert Run(start, frags[..1][..0]) == s0;
      assert frags[..1][0] == frags[0];
      assert s1 == Step(s0, frags[0]);
      assert "" + "Hello " == "Hello ";
    }
    assert frags[..2][..1] == frags[..1];
    assert Run(start, frags[..2]) == Step(s1, frags[1]);
    assert frags[..2] == frags;
    assert "Hello " + "world" == "Hello world";
    assert Shown("Hello world") == "Hello world";
  }
}

=== FILE: whitelist.dfy ===
/** `/whitelist` and `/unwhitelist`: an admin names a chat (the current one,
    an `@username` looked up through Telegram, or a numeric id) and the chat is
    added to or removed from the whitelist store.

    The store and the `getChat` lookup are outside the model: the lookup's
    answer is an input, and the result records which target, if any, was
    handed to the store, and the reply the admin sees. */
module Whitelist {
  import opened Options
  import opened JsText
  import opened Checks

  const ONLY_ADMINS := "Only admins can use this command!"
  const GROUP_NOT_FOUND := "Could not find the specified group. Please check the username and try again."

  /** The two commands share everything but their wording and store call. */
  datatype Command = Add | Remove

  function UsageReply(cmd: Command): string {
    match cmd
    case Add => "Please provide a valid chat ID or group username (e.g., /whitelist -100123456789 or /whitelist @groupname)."
    case Remove => "Please provide a valid chat ID or group username (e.g., /unwhitelist -100123456789 or /unwhitelist @groupname)."
  }

  function DoneReply(cmd: Command, target: string): string {
    match cmd
    case Add => "Chat " + target + " has been whitelisted."
    case Remove => "Chat " + target + " has been removed from the whitelist."
  }

  function FailedReply(cmd: Command): string {
    match cmd
    case Add => "Failed to whitelist the chat. It might already be whitelisted."
    case Remove => "Failed to remove the chat from whitelist. It might not be whitelisted."
  }

  /** How the first argument is read. */
  datatype Resolution = Resolved(target: string) | NotFound | Invalid

  /** The target chat: the current chat without arguments, the looked-up chat
      for `@username` (`lookup` is `getChat`'s answer, missing when it throws),
      a signed decimal verbatim, and nothing otherwise. Only the first argument
      is read. */
  function ResolveTarget(chatId: int, text: string, lookup: Option<int>): (r: Resolution)
    ensures |Args(text)| == 0 ==> r == Resolved(IntToString(chatId))
    ensures |Args(text)| > 0 && IsSignedDigitString(Args(text)[0]) ==> r == Resolved(Args(text)[0])
    ensures r.NotFound? ==> |Args(text)| > 0 && StartsWith(Args(text)[0], "@") && lookup.None?
    ensures r.Invalid? <==> |Args(text)| > 0 && !StartsWith(Args(text)[0], "@")
                            && !IsSignedDigitString(Args(text)[0])
    ensures r.Resolved? ==> IsSignedDigitString(r.target)
    ensures |Args(text)| > 0 && StartsWith(Args(text)[0], "@") ==>
              r == (if lookup.Some? then Resolved(IntToString(lookup.value)) else NotFound)
  {
    var args := Args(text);
    if |args| == 0 then
      IntToStringSigned(chatId);
      Resolved(IntToString(chatId))
    else
      var input := args[0];
      if StartsWith(input, "@") then
        UsernameNotNumeric(input);
        match lookup
        case Some(id) =>
          IntToStringSigned(id);
          Resolved(IntToString(id))
        case None => NotFound
      else if IsSignedDigitString(input) then Resolved(input)
      else Invalid
  }

  lemma UsernameNotNumeric(input: string)
    requires StartsWith(input, "@")
    ensures !IsSignedDigitString(input)
  {
    assert input[0] == "@"[0];
  }

  /** The command's effect: the reply and the target handed to the store. */
  datatype Outcome = Outcome(reply: string, stored: Option<string>)

  /** `/whitelist` or `/unwhitelist` sent by `userId` in chat `chatId`.
      `storeOk` says whether the store call and the confirmation reply after
      it both succeeded: the two share one error handler, so when the
      confirmation fails the failure reply follows although the store call
      went through. */
  function ChatCommand(cmd: Command, adminsEnv: string, userId: Option<int>, chatId: int,
                       text: string, lookup: Option<int>, storeOk: bool): (o: Outcome)
    ensures !AdminCaller(adminsEnv, userId) ==> o == Outcome(ONLY_ADMINS, None)
    ensures o.stored.Some? ==>
              AdminCaller(adminsEnv, userId)
              && ResolveTarget(chatId, text, lookup) == Resolved(o.stored.value)
              && IsSignedDigitString(o.stored.value)
              && o.reply == (if storeOk then DoneReply(cmd, o.stored.value) else FailedReply(cmd))
    ensures o.stored.None? ==>
              o.reply == ONLY_ADMINS
              || (ResolveTarget(chatId, text, lookup).NotFound? && o.reply == GROUP_NOT_FOUND)
              || (ResolveTarget(chatId, text, lookup).Invalid? && o.reply == UsageReply(cmd))
    ensures AdminCaller(adminsEnv, userId) && ResolveTarget(chatId, text, lookup).Resolved? ==>
              o.stored == Some(ResolveTarget(chatId, text, lookup).target)
    ensures AdminCaller(adminsEnv, userId) && ResolveTarget(chatId, text, lookup).NotFound? ==>
              o == Outcome(GROUP_NOT_FOUND, None)
    ensures AdminCaller(adminsEnv, userId) && ResolveTarget(chatId, text, lookup).Invalid? ==>
              o == Outcome(UsageReply(cmd), None)
  {
    if !AdminCaller(adminsEnv, userId) then
      Outcome(ONLY_ADMINS, None)
    else
      match ResolveTarget(chatId, text, lookup)
      case NotFound => Outcome(GROUP_NOT_FOUND, None)
      case Invalid => Outcome(UsageReply(cmd), None)
      case Resolved(target) =>
        Outcome(if storeOk then DoneReply(cmd, target) else FailedReply(cmd), Some(target))
  }

  /** Words after the first argument make no difference. */
  lemma FirstArgumentOnly(chatId: int, t1: string, t2: string, lookup: Option<int>)
    requires |Args(t1)| > 0 && |Args(t2)| > 0 && Args(t1)[0] == Args(t2)[0]
    ensures ResolveTarget(chatId, t1, lookup) == ResolveTarget(chatId, t2, lookup)
  {
  }

  /** A command word alone, with no space after it, targets the current chat;
      a trailing space yields one empty argument, which is invalid. */
  lemma BareAndTrailingSpace(chatId: int, word: string, lookup: Option<int>)
    requires Count(word, ' ') == 0
    ensures ResolveTarget(chatId, word, lookup) == Resolved(IntToString(chatId))
    ensures ResolveTarget(chatId, word + " ", lookup) == Invalid
  {
    CountAbsent(word, ' ');
    SplitSingle(word, ' ');
    assert IndexOf(word + " ", ' ') == |word| by {
      IndexOfPrefix(word, "", ' ');
      assert word + [' '] + "" == word + " ";
    }
    assert (word + " ")[|word| + 1..] == "";
    assert Split("", ' ') == [""];
    assert Args(word + " ") == [""];
  }

  /** Adding and removing differ only in wording: both resolve the same target
      and hand it to the store under the same conditions. */
  lemma SameResolution(adminsEnv: string, userId: Option<int>, chatId: int,
                       text: string, lookup: Option<int>, storeOk: bool)
    ensures ChatCommand(Add, adminsEnv, userId, chatId, text, lookup, storeOk).stored
         == ChatCommand(Remove, adminsEnv, userId, chatId, text, lookup, storeOk).stored
  {
  }
}
